=== FILE: README.md ===
# ImageMagick command-line driver of imagine-exec, modelled in Dafny

imagine-exec implements Imagine's image API by driving the ImageMagick
command-line tools rather than a binding. An `Image` never holds pixels. It
holds an argument array: the `convert` binary, the file it was opened from,
and then string tokens that each editing call (`crop`, `resize`,
`flipHorizontally`, …) appends. `save` copies that array and asks a planning
step (`getArguments`) for the tokens that fix the output:

- `-format`;
- an optional `-quality`;
- an optional resolution block.

It then appends the destination and runs one `convert` process. The driver
class `Imagine` reads the ImageMagick version banner and refuses versions
below 6.2.9. It maps the colorspace that `identify` reports to a palette and
seeds the argument array of an opened image. The `Effects` builder is a
second token appender. As written, `Image::effects()` hands it the argument
array where its constructor takes a ProcessBuilder. The model seeds the
builder with a copy of the array.

The model is functional:

- An image is an immutable record: arguments, palette, optional cached size,
  and a layer controller reduced to a count plus a log of the
  animate/merge/flatten calls made on it.
- A PHP method that returns `$this` becomes a function returning
  `Outcome<Image>`: `Done(state)` or `Threw(state, error)`.
- A method that returns a value becomes a function returning
  `Call<Image, T>`.
- The state after a throw is kept, because several methods append tokens
  before they validate.
- Process outputs, temporary paths and the size probe are parameters.

Files:

- `outcomes.dfy` (`Outcomes`): `Option`, `Result`, `Outcome`, `Call` and the
  error kinds.
- `text.dfy` (`Text`): decimal printing and parsing, `trim`, `strtolower`,
  `basename` and `pathinfo(…, PATHINFO_EXTENSION)`, and the regex class `\s`.
- `geometry.dfy` (`Geometry`): boxes, points, and the `%dx%d` and
  `%dx%d+%d+%d` geometry strings with their parsers.
- `tables.dfy` (`Tables`): the filter, interlace, resolution-unit, matte-type
  and MIME tables.
- `effects.dfy` (`Effects`): the effects builder.
- `planner.dfy` (`SavePlanner`): the save options and the pure decisions of
  `getArguments`.
- `image.dfy` (`Images`): the image handle, its editing calls, `getSize`,
  `usePalette`, `getArguments`, `save`, `get` and `show`.
- `imagine.dfy` (`Imagine`): `createPalette`, `getVersion`, the version gate,
  `open` and `load`.

The model follows the code as written:

- `crop` checks only that the start point lies inside the current size
  (Image.php:48). The crop box is never checked against the image.
- The compression rules are sequential overrides, so the last applicable rule
  wins (Image.php:481-509).
- A save whose format cannot be derived from any option or path emits
  `-format ""` and does not fail (Image.php:458-464).
- `usePalette` never replaces the stored palette (Image.php:399-409).
- `rotate` keeps a cached size (Image.php:137-157).

## Model

| member | source | states |
|---|---|---|
| Images.Argv | src/ImageMagick/Image.php:169-172 | The process is started with the array's values in insertion order: `convert` first, the opened file second, then the tokens unchanged. |
| Images.NewImage | src/ImageMagick/Image.php:28-33 | A new image holds the given arguments and palette, has no cached size, and its layer log is empty. |
| Images.Copy | src/ImageMagick/Image.php:38-41 | A copy has the same arguments and palette, no cached size and a fresh layer controller. |
| Images.CopyBranchesIndependently | src/ImageMagick/Image.php:38-41 | After a copy, the original's later calls contribute only to its own tokens and the copy's only to the copy's. Both start from the shared prefix. |
| Images.EffectsOf | src/ImageMagick/Image.php:247-250 | As evidently intended, the effects builder starts from a copy of the whole argument array, `convert` and file included. |
| Images.GetSize | src/ImageMagick/Image.php:255-267 | A cached size is returned as is. Otherwise the probed size is returned and cached. |
| Images.GetSizeStable | src/ImageMagick/Image.php:257-266 | A second `getSize` returns the first answer and does not probe again. |
| Images.Crop | src/ImageMagick/Image.php:46-56 | Crop throws OutOfBounds exactly when the start point is outside the current size, leaving the tokens unchanged. Otherwise it appends `-crop` and `WxH+X+Y`. The probed size is cached either way. |
| Images.CropIgnoresBox | src/ImageMagick/Image.php:48-50 | Whether a crop throws depends on the start point only, never on the requested box. |
| Images.CropTokenDecodes | src/ImageMagick/Image.php:52-53 | The crop geometry token parses back to the requested width, height, x and y. |
| Images.FlipHorizontally | src/ImageMagick/Image.php:61-66 | Appends exactly `-flop`. Every other part of the image is unchanged. |
| Images.FlipVertically | src/ImageMagick/Image.php:71-76 | Appends exactly `-flip`. Every other part of the image is unchanged. |
| Images.Strip | src/ImageMagick/Image.php:81-87 | Appends exactly `-strip`. Every other part of the image is unchanged. |
| Images.Resize | src/ImageMagick/Image.php:115-132 | Appends `-resize WxH`, then `-filter name` only for a filter other than the undefined one, and caches the new size. An unknown filter throws InvalidArgument with the `-resize` tokens already appended. |
| Images.ResizeThenGetSize | src/ImageMagick/Image.php:129 | After a successful resize, `getSize` returns exactly the requested box whatever the probe would say. |
| Images.ResizeTokenDecodes | src/ImageMagick/Image.php:117-118 | The token after `-resize` parses back to the requested width and height. |
| Images.Rotate | src/ImageMagick/Image.php:137-157 | Appends `-rotate` and the angle. The background colour has no effect, and nothing else changes. |
| Images.Profile | src/ImageMagick/Image.php:422-431 | Appends `-profile` and the temporary file's path. |
| Images.Interlace | src/ImageMagick/Image.php:209-226 | An unknown scheme throws InvalidArgument with the image unchanged. A known scheme appends `-interlace` and its name. |
| Images.SetColorspace | src/ImageMagick/Image.php:624-642 | A palette missing from the colorspace table throws InvalidArgument before appending. Otherwise it appends `-type`, the matte type, `-colorspace` and the table's name. |
| Images.UsePaletteWith | src/ImageMagick/Image.php:399-409 | Equal palette names give a no-op. Otherwise `-profile` is appended first, so an unsupported palette throws with it in place. The stored palette is never replaced. |
| Images.UsePalette | src/ImageMagick/Image.php:399-409 | With the intended table, a change to RGB, CMYK or Grayscale appends `-profile p -type TrueColorMatte -colorspace sRGB`, `… TrueColorMatte -colorspace CMYK` or `… GrayscaleMate -colorspace Gray` respectively. Any other palette throws. |
| Images.UsePaletteAsWritten | src/ImageMagick/Image.php:399-409 | With the colorspace table as declared, equal palette names give a no-op, and every change of palette throws InvalidArgument after appending `-profile`. The stored palette is never replaced. |
| Images.UsePaletteRgbToCmyk | src/ImageMagick/Image.php:633-641 | Converting an RGB image to CMYK throws as written. With the intended table it appends `-profile p -type TrueColorMatte -colorspace CMYK`. |
| Images.ApplyMatchesTable | src/ImageMagick/Image.php:61-226 | Each simple editing call either appends exactly its entry in the per-operation token table, or throws with the image unchanged. |
| Images.ApplyAllAppendsContributions | src/ImageMagick/Image.php:61-226 | A chain of simple edits succeeds exactly when every call does. The resulting tokens are the old tokens followed by the contributions of the leading successful calls in call order. No other field changes. |
| Images.GetArguments | src/ImageMagick/Image.php:452-553 | The plan is the stored arguments, then `-format` with the lower-cased format, then `-quality` if a value was chosen, then the resolution block. It fails exactly when the compression or resolution rules fail. A compression failure is InvalidArgument; otherwise the error is the resolution block's. The stored arguments, palette and size are never modified. The layer log gains the animate/merge request, and a flatten only on success. |
| Images.AnimateOrMerge | src/ImageMagick/Image.php:466-476 | Each save makes exactly one animate or merge call: animate exactly when `animated` is true, merge otherwise. An animated save never flattens. A flatten is logged exactly when planning succeeds and flattening is requested. |
| Images.SaveCommand | src/ImageMagick/Image.php:162-170 | The destination is the given path, else the opened file. Without either, it throws before planning. Otherwise the argv is the plan followed by the destination. |
| Images.SaveCommandShape | src/ImageMagick/Image.php:169-172 | A save argv starts with the stored arguments unchanged, continues with `-format` and the lower-cased format, and ends with the destination. The stored arguments are untouched. |
| Images.SaveDefaultsToOpenedFile | src/ImageMagick/Image.php:164-167 | Saving with no path is the same as saving to the opened file. |
| Images.Save | src/ImageMagick/Image.php:162-179 | A save succeeds exactly when planning succeeds and the process succeeds. A failure before the run (no path and no opened file, or a rejected compression or resolution option) throws that same error. A failed process throws RuntimeException. |
| Images.Get | src/ImageMagick/Image.php:196-204 | `get` writes the requested format, lower-cased, after the unchanged stored arguments and ends with the temporary file, whatever the file names say. It throws exactly when the compression for that format or the resolution block is rejected (with that rule's error) or the `convert` run fails (RuntimeException, as `save` throws). The stored arguments and palette are untouched. |
| Images.Show | src/ImageMagick/Image.php:185-191 | An unknown MIME format throws RuntimeException before anything is planned. Otherwise the MIME type comes with the argv of `get`, and any error of `get` passes through unchanged. |
| SavePlanner.SaveFormat | src/ImageMagick/Image.php:458-467 | The format is the explicit option, else the destination's extension when non-empty, else the opened file's extension. An animated save uses the explicit option or `gif`. |
| SavePlanner.SaveFormatOfExtension | src/ImageMagick/Image.php:460-461 | Saving to `stem.ext` without a format option writes format `ext`. |
| SavePlanner.FileExtension | src/ImageMagick/Image.php:463 | The opened file's extension has no dot or slash. It is empty when there is no file or the file's base name has no dot. |
| SavePlanner.FileExtensionOfSuffix | src/ImageMagick/Image.php:463 | An image opened from `stem.ext` has extension `ext`. |
| SavePlanner.FlattenRequested | src/ImageMagick/Image.php:548 | Flattening is requested exactly when the save is not animated, `flatten` is not false, and there is more than one layer. |
| SavePlanner.ResamplingFilter | src/ImageMagick/Image.php:527-530 | An unset or empty (`""` or `"0"`) option gives the undefined filter. Any other filter is the option's own value. |
| SavePlanner.LayerRequest | src/ImageMagick/Image.php:466-476 | An animated save asks for animate(format, delay or unset, loops or 0). Every other save asks for a merge. |
| SavePlanner.Compression | src/ImageMagick/Image.php:481-509 | The last applicable rule wins: PNG options when the format is exactly `png`, then `jpeg_quality` for jpeg/jpg/pjpeg, then `quality`. The PNG value is 10·level + filter with defaults 7 and 5. It fails with InvalidArgument exactly when an applicable PNG option lies outside 0–9. |
| SavePlanner.PngQualityDigits | src/ImageMagick/Image.php:489-508 | A PNG quality value is a two-digit code: tens digit the level, units digit the filter. |
| SavePlanner.PngQualityExamples | src/ImageMagick/Image.php:489-508 | Level 3 with filter 8 gives 38. Filter 2 alone gives 72. No option gives no value. |
| SavePlanner.PngOptionsNeedExactFormat | src/ImageMagick/Image.php:489 | For any format other than exactly `png`, the PNG options are ignored, even out of range. |
| SavePlanner.QualityTokens | src/ImageMagick/Image.php:511-514 | `-quality` is emitted only when a value was chosen, and its token parses back to that value. |
| SavePlanner.ResolutionTokens | src/ImageMagick/Image.php:516-546 | The block appears only when units, x and y are all set. An unknown unit fails with RuntimeException and an unknown filter with InvalidArgument. The order is `-units U -density XxY -resample XxY`, then `-filter F` only for a non-empty filter name. |
| SavePlanner.ResolutionTokensDecode | src/ImageMagick/Image.php:532-536 | The density and resample tokens are equal and parse back to the requested x and y. |
| SavePlanner.ResolutionExample | src/ImageMagick/Image.php:516-536 | Pixels per inch at 300×300 gives `-units PixelsPerInch -density 300x300 -resample 300x300`. |
| Tables.FilterName | src/ImageMagick/Image.php:653-682 | Only the listed filters have names. An unknown filter fails with InvalidArgument. The name is empty exactly for the undefined filter. |
| Tables.FilterNameIdentifies | src/ImageMagick/Image.php:655-671 | No two filters share a `-filter` name, so the name identifies the filter. |
| Tables.InterlaceName | src/ImageMagick/Image.php:211-220 | Only the four known schemes have names: none, line, plane, partition. |
| Tables.InterlaceNameIdentifies | src/ImageMagick/Image.php:211-216 | Each interlace name identifies its scheme. |
| Tables.UnitName | src/ImageMagick/Image.php:517-525 | The two supported units map to PixelsPerCentimeter and PixelsPerInch. Any other fails with RuntimeException. |
| Tables.MatteType | src/ImageMagick/Image.php:626-631 | Grayscale maps to GrayscaleMate; RGB and CMYK map to TrueColorMatte. |
| Tables.MimeType | src/ImageMagick/Image.php:599-615 | Exactly jpeg, jpg, gif, png, wbmp and xbm have MIME types: jpeg and jpg give image/jpeg, gif gives image/gif, png gives image/png, wbmp gives image/vnd.wap.wbmp and xbm gives image/xbm. Every other format fails with RuntimeException. |
| Effects.Gamma | src/ImageMagick/Effects.php:25-31 | Appends `+gamma` and the correction. |
| Effects.Negative | src/ImageMagick/Effects.php:36-41 | Appends `-negate`. |
| Effects.Grayscale | src/ImageMagick/Effects.php:46-52 | Appends exactly `-colorspace Gray`. |
| Effects.Colorize | src/ImageMagick/Effects.php:57-67 | A non-RGB colour throws NotSupported and appends nothing. An RGB colour appends `-colorize` and the colour string. |
| Effects.Sharpen | src/ImageMagick/Effects.php:72-78 | Appends `-sharpen 2x1`. |
| Effects.Blur | src/ImageMagick/Effects.php:83-89 | Appends `-gaussian-blur` and `0x` followed by the sigma, which defaults to 1. |
| Effects.Brightness | src/ImageMagick/Effects.php:94-100 | Throws InvalidArgument exactly when the rounded value is outside [-100, 100]. It never appends. |
| Effects.Convolve | src/ImageMagick/Effects.php:105-110 | Throws InvalidArgument unless the matrix is 3×3. It never appends. |
| Effects.ApplyEffectMatchesTable | src/ImageMagick/Effects.php:25-110 | Each effect call appends exactly its entry in the effects token table, or throws with the builder unchanged. |
| Effects.ApplyEffectsAppendsContributions | src/ImageMagick/Effects.php:25-110 | Successive effect calls succeed exactly when every call does. The tokens gain the leading successful calls' contributions in call order. |
| Imagine.CreatePalette | src/ImageMagick/Imagine.php:154-170 | The trimmed output `RGB` or `sRGB` gives RGB, `CMYK` gives CMYK and `Gray` gives Grayscale. Anything else fails with NotSupported. |
| Imagine.ColorspacesRoundTrip | src/ImageMagick/Imagine.php:159-166 | The colorspace `usePalette` selects for each built-in palette is read back by `createPalette` as the same palette. |
| Imagine.FirstMatch | src/ImageMagick/Imagine.php:183 | Finds the leftmost position where `ImageMagick ` is followed by a non-whitespace character, or reports that none exists. |
| Imagine.RunEnd | src/ImageMagick/Imagine.php:183 | The run of non-whitespace characters from a position is maximal. |
| Imagine.GetVersion | src/ImageMagick/Imagine.php:177-188 | Fails with RuntimeException exactly when no position matches. Otherwise the version is the non-empty maximal whitespace-free run after the first `ImageMagick `. |
| Imagine.VersionOfBanner | src/ImageMagick/Imagine.php:183-187 | A banner such as `Version: ImageMagick 6.9.10 Q16` yields exactly `6.9.10`. |
| Imagine.Components | src/ImageMagick/Imagine.php:39 | A version has at most as many components as characters. A string without digits has none, and an all-digit string is one component, its value. |
| Imagine.LexLess | src/ImageMagick/Imagine.php:39 | A version is never below itself, and a proper prefix is below every extension of it. |
| Imagine.LexLessAsymmetric | src/ImageMagick/Imagine.php:39 | No two versions are each below the other. |
| Imagine.LexLessTotal | src/ImageMagick/Imagine.php:39 | Of two different versions, one is below the other. |
| Imagine.ComponentsOfJoinVersion | src/ImageMagick/Imagine.php:39 | Reading the numeric components of a dotted version gives back the numbers it was printed from. |
| Imagine.New | src/ImageMagick/Imagine.php:34-46 | The constructor fails with RuntimeException when there is no version or the version is below 6.2.9. Otherwise it keeps both binaries. |
| Imagine.AtLeastMinimum | src/ImageMagick/Imagine.php:39 | Three components pass the gate exactly when a > 6, or a = 6 and (b > 2, or b = 2 and c ≥ 9). |
| Imagine.VersionGate | src/ImageMagick/Imagine.php:37-41 | With a banner printing a.b.c, the constructor succeeds exactly when a.b.c is at least 6.2.9. |
| Imagine.Open | src/ImageMagick/Imagine.php:51-67 | Open seeds `['convert' => binary, 'file' => path]` with no tokens. The path is the local path, or the temporary copy for a remote file. The palette comes from `createPalette`, whose failure propagates. |
| Imagine.OpenAsWritten | src/ImageMagick/Imagine.php:51-67 | As written, open fails exactly when `createPalette` fails. |
| Imagine.OpenAsWrittenReturnsNothing | src/ImageMagick/Imagine.php:62-67 | As written, a successful open hands the caller nothing. |
| Imagine.Load | src/ImageMagick/Imagine.php:105-113 | Load seeds `['convert' => binary, 'file' => temporary file]` with no tokens, and its palette comes from `identify` on that file. |
| Text.Trim | src/ImageMagick/Imagine.php:159 | `trim` removes exactly the leading and trailing characters that PHP strips by default, and keeps the infix between them. |
| Text.Extension | src/ImageMagick/Image.php:460-463 | The extension contains no dot and no slash. It is empty when the base name has no dot; otherwise it is exactly what follows the base name's last dot. |
| Text.ExtensionOfSuffix | src/ImageMagick/Image.php:460-463 | The extension of `stem.ext` is `ext` when `ext` contains no dot or slash. |
| Text.ToLower | src/ImageMagick/Image.php:479 | Lower-casing keeps the length and maps each character to its lower-case form, ASCII letters only. |
| Geometry.In | src/ImageMagick/Image.php:48 | The top-left corner lies inside every box, and so does every point above and to the left of a point inside. |
| Geometry.Dims | src/ImageMagick/Image.php:118 | A `%dx%d` token parses back to its width and height, and holds no `+`. |
| Geometry.CropGeometry | src/ImageMagick/Image.php:53 | A `%dx%d+%d+%d` token parses back to its four numbers. |
| Text.ParseIntOfIntToString | src/ImageMagick/Image.php:513 | A printed integer parses back to itself. |

## Left out

- Running processes is not modelled. This covers `convert`, `identify` and `convert --version`, temporary-file creation and reading, `Filesystem`, and `header`/`echo` in `show`. Their outputs and temporary paths are function parameters, and so is whether the `convert` run of `save`, `get` and `show` succeeds. `get` returns the command line it runs, not the bytes it reads back.
- The size probe of `getSize` is not modelled: the size it would report is a parameter. Its regex parsing of the probe output is not modelled either. As written the probe probably never runs: Image.php:258 calls `ProcessBuilder::create` unqualified, while Image.php imports only Symfony's `Process` (line 20), so inside the `Webuni\ImagineExec\ImageMagick` namespace the name points to a class no file defines. A `getSize` with no cached size, and so a `crop` on an image that was never resized, would then stop with a class-not-found Error. The model probes as evidently intended.
- `paste`, `applyMask`, `mask`, `fill`, `histogram`, `getColorAt`, `getColor`, `applyFastLinear`, `Imagine::create`, `Imagine::read`, `font`, `draw` and `layers()` are not modelled. They work on an Imagick resource or on classes that are not part of this model (`Layers`, `Drawer`, `Font`, `ClassFactory`).
- `Layers` and `flatten()` are not modelled. The layer controller is reduced to its layer count and a log of animate, merge and flatten calls, and the count is not changed by merging or flattening.
- The metadata bag is opaque and not modelled. `copy` clones it.
- `updateSaveOptions` belongs to the parent class and is taken to leave the options unchanged.
- Floating point is not modelled. The rotate angle, gamma correction and blur sigma are the strings they print as, and brightness is taken after rounding to an integer.
- Exception messages are not modelled. Only the exception kind is kept.
- Option values are not type-checked. Integer options are integers, and the PNG level and filter are never non-numeric.
- `__toString` is not modelled. It is `get('png')`.
- Effects.Brightness and Effects.Convolve return nothing in the source, not the builder. A fluent chain therefore cannot continue past them. `Effects.ApplyEffects` models successive calls on the same builder object.
- Images.EffectsOf: as written, `effects()` passes the argument array to `Effects::__construct`, which accepts only a ProcessBuilder (Effects.php:17), so every call raises a TypeError. The model seeds the builder with a copy of the array, as evidently intended, and does not model the TypeError.
- Imagine.Load: the source passes an undefined variable to `createPalette` instead of the temporary file. The model takes `identify`'s output for the temporary file as its input.
- Imagine.New: PHP's `version_compare` is reduced to comparing the maximal runs of decimal digits lexicographically, with a proper prefix ordered first. Suffixes such as `alpha`, `beta` or `rc` are not given PHP's special ordering: `6.2.9rc1` passes the gate in the model, while PHP ranks it below 6.2.9.
- Imagine.GetVersion: the whitespace class is the ASCII one (space and characters 9 to 13).
- Images.GetArguments: `count($this->layers())` is taken as the layer count carried with the image. The flatten itself is only logged.

## Findings

| source | as written | input that shows it | evidently intended | confidence | as-written member | corrected member |
|---|---|---|---|---|---|---|
| src/ImageMagick/Image.php:633-641 | `setColorspace` reads `static::$colorspaceMapping`, which Image.php never declares. The parent class is not part of this model; if it declares no such table either, `isset` is false for every palette. | `usePalette` from an RGB image to the CMYK palette throws InvalidArgument after appending `-profile`. | A colorspace table mapping rgb, cmyk and gray to sRGB, CMYK and Gray, the names `createPalette` reads back. | medium, not executed | Images.UsePaletteAsWritten, Images.UsePaletteRgbToCmyk | Images.UsePalette, Imagine.ColorspacesRoundTrip |
| src/ImageMagick/Imagine.php:51-67 | `open` builds the image but has no `return` statement, so the caller receives null. | Opening any local file whose colorspace is `sRGB` returns null instead of an image. | Return the image built from `['convert' => binary, 'file' => path]`. | high, not executed | Imagine.OpenAsWrittenReturnsNothing | Imagine.Open |

=== FILE: effects.dfy ===
/** The effects builder (src/ImageMagick/Effects.php): a second token
    appender with a token list of its own. As written, `Image::effects()`
    passes the image's argument array to a constructor that accepts only a
    ProcessBuilder, so PHP raises a TypeError; the model seeds the builder
    with a copy of that array instead, so nothing it appends reaches the
    image. Floating-point inputs (gamma correction, blur sigma) are carried
    as the strings they print as; brightness is taken after rounding.
 */
module Effects {
  import opened Outcomes
  import opened Tables

  datatype Builder = Builder(tokens: seq<string>)

  /** `after` is `before` with exactly `added` appended. */
  predicate Extends(before: Builder, after: Builder, added: seq<string>) {
    after.tokens == before.tokens + added
  }

  function Gamma(b: Builder, correction: string): (r: Builder)
    ensures Extends(b, r, ["+gamma", correction])
  {
    Builder(b.tokens + ["+gamma", correction])
  }

  function Negative(b: Builder): (r: Builder)
    ensures Extends(b, r, ["-negate"])
  {
    Builder(b.tokens + ["-negate"])
  }

  function Grayscale(b: Builder): (r: Builder)
    ensures Extends(b, r, ["-colorspace", "Gray"])
  {
    Builder(b.tokens + ["-colorspace", "Gray"])
  }

  /** Only colours of the RGB palette can be colorized; any other throws before appending. */
  function Colorize(b: Builder, color: Color): (r: Outcome<Builder>)
    ensures r.Threw? <==> color.palette != PaletteRgb
    ensures r.Threw? ==> r.error == NotSupported && r.state == b
    ensures r.Done? ==> Extends(b, r.state, ["-colorize", color.text])
  {
    if color.palette != PaletteRgb then Threw(b, NotSupported)
    else Done(Builder(b.tokens + ["-colorize", color.text]))
  }

  function Sharpen(b: Builder): (r: Builder)
    ensures Extends(b, r, ["-sharpen", "2x1"])
  {
    Builder(b.tokens + ["-sharpen", "2x1"])
  }

  /** `blur($sigma = 1)`: a Gaussian blur of radius 0 and the given sigma. */
  function Blur(b: Builder, sigma: Option<string>): (r: Builder)
    ensures Extends(b, r, ["-gaussian-blur", "0x" + sigma.GetOr("1")])
  {
    Builder(b.tokens + ["-gaussian-blur", "0x" + sigma.GetOr("1")])
  }

  /** Validates the rounded brightness and appends nothing, in range or not. */
  function Brightness(b: Builder, rounded: int): (r: Outcome<Builder>)
    ensures r.state == b
    ensures r.Threw? <==> rounded < -100 || rounded > 100
    ensures r.Threw? ==> r.error == InvalidArgument
  {
    if rounded < -100 || rounded > 100 then Threw(b, InvalidArgument) else Done(b)
  }

  /** Validates the matrix shape and appends nothing, 3x3 or not. */
  function Convolve(b: Builder, width: nat, height: nat): (r: Outcome<Builder>)
    ensures r.state == b
    ensures r.Threw? <==> width != 3 || height != 3
    ensures r.Threw? ==> r.error == InvalidArgument
  {
    if width != 3 || height != 3 then Threw(b, InvalidArgument) else Done(b)
  }

  // ---------------------------------------------------------------------
  // Chains of effect calls
  // ---------------------------------------------------------------------

  /** One call on the effects builder. */
  datatype Effect =
    | EffectGamma(correction: string)
    | EffectNegative
    | EffectGrayscale
    | EffectColorize(color: Color)
    | EffectSharpen
    | EffectBlur(sigma: Option<string>)
    | EffectBrightness(rounded: int)
    | EffectConvolve(width: nat, height: nat)

  /** What a call contributes to the token list, or None when it throws;
      the table of Effects.php written out independently of the builder. */
  function EffectTokens(e: Effect): Option<seq<string>> {
    match e
    case EffectGamma(c) => Some(["+gamma", c])
    case EffectNegative => Some(["-negate"])
    case EffectGrayscale => Some(["-colorspace", "Gray"])
    case EffectColorize(c) => if c.palette == PaletteRgb then Some(["-colorize", c.text]) else None
    case EffectSharpen => Some(["-sharpen", "2x1"])
    case EffectBlur(s) => Some(["-gaussian-blur", "0x" + s.GetOr("1")])
    case EffectBrightness(v) => if -100 <= v <= 100 then Some([]) else None
    case EffectConvolve(w, h) => if w == 3 && h == 3 then Some([]) else None
  }

  function ApplyEffect(b: Builder, e: Effect): Outcome<Builder> {
    match e
    case EffectGamma(c) => Done(Gamma(b, c))
    case EffectNegative => Done(Negative(b))
    case EffectGrayscale => Done(Grayscale(b))
    case EffectColorize(c) => Colorize(b, c)
    case EffectSharpen => Done(Sharpen(b))
    case EffectBlur(s) => Done(Blur(b, s))
    case EffectBrightness(v) => Brightness(b, v)
    case EffectConvolve(w, h) => Convolve(b, w, h)
  }

  /** Successive calls on one builder (`$effects->a(); $effects->b(); …`): they stop at the first call that throws. */
  function ApplyEffects(b: Builder, es: seq<Effect>): Outcome<Builder>
    decreases |es|
  {
    if es == [] then Done(b)
    else match ApplyEffect(b, es[0])
      case Threw(s, err) => Threw(s, err)
      case Done(s) => ApplyEffects(s, es[1..])
  }

  /** How many leading calls of the chain succeed. */
  function EffectsSucceeding(es: seq<Effect>): nat
    decreases |es|
  {
    if es == [] || EffectTokens(es[0]).None? then 0 else 1 + EffectsSucceeding(es[1..])
  }

  /** The tokens the succeeding leading calls contribute, in call order. */
  function EffectsContributed(es: seq<Effect>): seq<string>
    decreases |es|
  {
    if es == [] || EffectTokens(es[0]).None? then [] else EffectTokens(es[0]).value + EffectsContributed(es[1..])
  }

  lemma ApplyEffectMatchesTable(b: Builder, e: Effect)
    ensures EffectTokens(e).Some? ==> ApplyEffect(b, e) == Done(Builder(b.tokens + EffectTokens(e).value))
    ensures EffectTokens(e).None? ==> ApplyEffect(b, e).Threw? && ApplyEffect(b, e).state == b
  {
    if e.EffectBrightness? || e.EffectConvolve? {
      assert b.tokens + [] == b.tokens;
    }
  }

  /** A chain of effect calls appends exactly the concatenation of the
      calls' contributions, in call order, up to the first call that throws;
      that call appends nothing. */
  lemma {:induction false} ApplyEffectsAppendsContributions(b: Builder, es: seq<Effect>)
    ensures ApplyEffects(b, es).Done? <==> EffectsSucceeding(es) == |es|
    ensures ApplyEffects(b, es).state == Builder(b.tokens + EffectsContributed(es))
    decreases |es|
  {
    if es == [] {
      assert b.tokens + [] == b.tokens;
    } else {
      ApplyEffectMatchesTable(b, es[0]);
      match EffectTokens(es[0])
      case None =>
        assert b.tokens + [] == b.tokens;
      case Some(c) =>
        var b' := Builder(b.tokens + c);
        ApplyEffectsAppendsContributions(b', es[1..]);
        assert b.tokens + c + EffectsContributed(es[1..]) == b.tokens + (c + EffectsContributed(es[1..]));
    }
  }
}

=== FILE: geometry.dfy ===
/** Boxes, points and the geometry strings the builder writes for them.

    Imagine's `Box` (positive width and height) and `Point` (non-negative
    coordinates) are the values the editing calls receive; their classes are
    not part of this model, only the checks their constructors and
    `Point::in` perform. The geometry strings are the source's
    `sprintf('%dx%d', …)` and `sprintf('%dx%d+%d+%d', …)`; the parsers below
    read them back, which is how the external tool consumes them.
 */
module Geometry {
  import opened Outcomes
  import opened Text

  type Positive = n: int | n > 0 witness 1

  datatype Box = Box(width: Positive, height: Positive)

  datatype Point = Point(x: nat, y: nat)

  /** `Point::in`: the point lies inside the box, counting from the top-left
      corner. The corner itself lies inside every box, and so does every point
      above and to the left of one inside. */
  function In(p: Point, b: Box): (r: bool)
    ensures p == Point(0, 0) ==> r
    ensures forall q: Point :: r && q.x <= p.x && q.y <= p.y ==> q.x < b.width && q.y < b.height
  {
    p.x < b.width && p.y < b.height
  }

  /** `sprintf('%dx%d', w, h)`: a `WxH` token that names exactly the width and height it was written from. */
  function Dims(w: int, h: int): (s: string)
    ensures ParseDims(s) == Some((w, h))
    ensures '+' !in s
  {
    var a := IntToString(w);
    var b := IntToString(h);
    assert 'x' !in a;
    SplitAtSeparator(a, 'x', b);
    ParseIntOfIntToString(w);
    ParseIntOfIntToString(h);
    var s := a + ['x'] + b;
    assert forall k :: 0 <= k < |s| ==> s[k] == '-' || s[k] == 'x' || IsDigit(s[k]);
    assert s == a + "x" + b;
    s
  }

  /** `sprintf('%dx%d+%d+%d', w, h, x, y)`: a `WxH+X+Y` token that names exactly the rectangle it was written from. */
  function CropGeometry(w: int, h: int, x: int, y: int): (s: string)
    ensures ParseCrop(s) == Some((w, h, x, y))
  {
    var size := Dims(w, h);
    var xs := IntToString(x);
    var ys := IntToString(y);
    ParseIntOfIntToString(x);
    ParseIntOfIntToString(y);
    assert '+' !in xs;
    ParseCropOfParts(size, xs, ys, w, h, x, y);
    size + "+" + xs + "+" + ys
  }

  /** `size+xs+ys` reads back as the rectangle its parts name. */
  lemma ParseCropOfParts(size: string, xs: string, ys: string, w: int, h: int, x: int, y: int)
    requires '+' !in size && ParseDims(size) == Some((w, h))
    requires '+' !in xs && ParseInt(xs) == Some(x) && ParseInt(ys) == Some(y)
    ensures ParseCrop(size + "+" + xs + "+" + ys) == Some((w, h, x, y))
  {
    var offset := xs + ['+'] + ys;
    assert size + "+" + xs + "+" + ys == size + ['+'] + offset;
    SplitAtSeparator(size, '+', offset);
    SplitAtSeparator(xs, '+', ys);
  }

  /** Splits `s` at the first `sep`. */
  function SplitAt(s: string, sep: char): Option<(string, string)> {
    match IndexOf(s, sep)
    case None => None
    case Some(k) => Some((s[..k], s[k + 1..]))
  }

  function ParseDims(s: string): Option<(int, int)> {
    match SplitAt(s, 'x')
    case None => None
    case Some((a, b)) =>
      match (ParseInt(a), ParseInt(b))
      case (Some(w), Some(h)) => Some((w, h))
      case _ => None
  }

  function ParseCrop(s: string): Option<(int, int, int, int)> {
    match SplitAt(s, '+')
    case None => None
    case Some((size, offset)) =>
      match (ParseDims(size), SplitAt(offset, '+'))
      case (Some((w, h)), Some((a, b))) =>
        (match (ParseInt(a), ParseInt(b))
         case (Some(x), Some(y)) => Some((w, h, x, y))
         case _ => None)
      case _ => None
  }

  lemma SplitAtSeparator(a: string, sep: char, b: string)
    requires sep !in a
    ensures SplitAt(a + [sep] + b, sep) == Some((a, b))
  {
    IndexOfSeparator(a, sep, b);
    var s := a + [sep] + b;
    assert s[..|a|] == a;
    assert s[|a| + 1..] == b;
  }
}

=== FILE: image.dfy ===
/** The image handle of the ImageMagick driver (src/ImageMagick/Image.php).

    An image never touches pixels: every editing call appends string tokens
    to the argument record it was opened with, and `save` turns that record
    into the command line of one `convert` run. The record holds the
    `convert` binary, the opened file and then the tokens, in the insertion
    order of the PHP array. The layer controller is reduced to its layer
    count and a log of the animate/merge/flatten calls made on it.
 */
module Images {
  import opened Outcomes
  import opened Text
  import opened Geometry
  import opened Tables
  import opened SavePlanner
  import Effects

  /** The `$arguments` array: `'convert' => binary, 'file' => path`, then the appended tokens. */
  datatype Args = Args(convert: string, file: Option<string>, tokens: seq<string>)

  /** The array's values in order: what the process is started with. */
  function Argv(a: Args): (argv: seq<string>)
    ensures |argv| == (if a.file.Some? then 2 else 1) + |a.tokens|
    ensures argv[0] == a.convert
    ensures argv[|argv| - |a.tokens|..] == a.tokens
    ensures a.file.Some? ==> argv[1] == a.file.value
  {
    [a.convert] + (if a.file.Some? then [a.file.value] else []) + a.tokens
  }

  datatype Layers = Layers(count: nat, log: seq<LayerEvent>)

  datatype Image = Image(args: Args, palette: Palette, size: Option<Box>, layers: Layers)

  /** `new Image($arguments, $palette, $metadata)`: no size known yet, a fresh layer controller. */
  function NewImage(args: Args, palette: Palette, layerCount: nat): (img: Image)
    ensures img.args == args && img.palette == palette
    ensures img.size.None? && img.layers.log == []
  {
    Image(args, palette, None, Layers(layerCount, []))
  }

  /** `after` is `before` with exactly `added` appended to its tokens; nothing else changes. */
  predicate Appended(before: Image, after: Image, added: seq<string>) {
    && after.args.convert == before.args.convert
    && after.args.file == before.args.file
    && after.args.tokens == before.args.tokens + added
    && after.palette == before.palette
    && after.size == before.size
    && after.layers == before.layers
  }

  function Append(img: Image, added: seq<string>): (r: Image)
    ensures Appended(img, r, added)
  {
    img.(args := img.args.(tokens := img.args.tokens + added))
  }

  // ---------------------------------------------------------------------
  // Copying
  // ---------------------------------------------------------------------

  /** `copy`: the same arguments and palette (PHP arrays are values), no cached size, a fresh layer controller. */
  function Copy(img: Image): (r: Image)
    ensures r.args == img.args && r.palette == img.palette
    ensures r.size.None?
    ensures r.layers == Layers(img.layers.count, [])
  {
    NewImage(img.args, img.palette, img.layers.count)
  }

  /** `effects`, as evidently intended: the builder starts from a copy of the
      whole argument array. As written the constructor's ProcessBuilder type
      rejects the array. */
  function EffectsOf(img: Image): (b: Effects.Builder)
    ensures b.tokens == Argv(img.args)
  {
    Effects.Builder(Argv(img.args))
  }

  // ---------------------------------------------------------------------
  // Size
  // ---------------------------------------------------------------------

  /** `getSize`: the cached size, or the size the external probe reports,
      which is then cached. The probe (`convert file -format %wx%h info:`) is
      an input here. */
  function GetSize(img: Image, probed: Box): (r: (Box, Image))
    ensures img.size.Some? ==> r == (img.size.value, img)
    ensures img.size.None? ==> r.0 == probed
    ensures r.1 == img.(size := Some(r.0))
  {
    match img.size
    case Some(s) => (s, img)
    case None => (probed, img.(size := Some(probed)))
  }

  /** Asking for the size twice gives the same answer and probes at most once. */
  lemma GetSizeStable(img: Image, probed: Box, again: Box)
    ensures GetSize(GetSize(img, probed).1, again) == GetSize(img, probed)
  {
  }

  // ---------------------------------------------------------------------
  // Editing calls
  // ---------------------------------------------------------------------

  /** `crop`: only the start point is checked, against the (possibly probed
      and then cached) current size; the crop box itself is not checked.
      A failed crop appends nothing. */
  function Crop(img: Image, start: Point, size: Box, probed: Box): (r: Outcome<Image>)
    ensures var current := GetSize(img, probed).0;
            && (r.Threw? <==> !In(start, current))
            && (r.Threw? ==> r.error == OutOfBounds && r.state == img.(size := Some(current)))
            && (r.Done? ==> Appended(img.(size := Some(current)), r.state,
                                     ["-crop", CropGeometry(size.width, size.height, start.x, start.y)]))
  {
    var (current, img) := GetSize(img, probed);
    if !In(start, current) then Threw(img, OutOfBounds)
    else Done(Append(img, ["-crop", CropGeometry(size.width, size.height, start.x, start.y)]))
  }

  /** Whether a crop fails depends on its start point only, never on the box asked for. */
  lemma CropIgnoresBox(img: Image, start: Point, a: Box, b: Box, probed: Box)
    ensures Crop(img, start, a, probed).Threw? == Crop(img, start, b, probed).Threw?
  {
  }

  /** The crop token reads back as the requested rectangle. */
  lemma CropTokenDecodes(img: Image, start: Point, size: Box, probed: Box)
    requires Crop(img, start, size, probed).Done?
    ensures var t := Crop(img, start, size, probed).state.args.tokens;
            && |t| == |img.args.tokens| + 2
            && t[|t| - 2] == "-crop"
            && ParseCrop(t[|t| - 1]) == Some((size.width as int, size.height as int, start.x as int, start.y as int))
  {
  }

  function FlipHorizontally(img: Image): (r: Image)
    ensures Appended(img, r, ["-flop"])
  {
    Append(img, ["-flop"])
  }

  function FlipVertically(img: Image): (r: Image)
    ensures Appended(img, r, ["-flip"])
  {
    Append(img, ["-flip"])
  }

  function Strip(img: Image): (r: Image)
    ensures Appended(img, r, ["-strip"])
  {
    Append(img, ["-strip"])
  }

  /** `resize`: appends the new size, then the filter, and caches the new
      size. The size tokens are appended before the filter is looked up, so
      an unknown filter throws with them already in place. */
  function Resize(img: Image, size: Box, filter: Filter): (r: Outcome<Image>)
    ensures r.Threw? <==> filter.UnknownFilter?
    ensures r.Threw? ==> r.error == InvalidArgument && Appended(img, r.state, ["-resize", Dims(size.width, size.height)])
    ensures r.Done? ==>
              && r.state.size == Some(size)
              && Appended(img.(size := Some(size)), r.state,
                          ["-resize", Dims(size.width, size.height)]
                          + (if filter == FilterUndefined then [] else ["-filter", FilterName(filter).value]))
  {
    var img := Append(img, ["-resize", Dims(size.width, size.height)]);
    match FilterName(filter)
    case Failure(e) => Threw(img, e)
    case Success(name) =>
      var img := if name != "" then Append(img, ["-filter", name]) else img;
      Done(img.(size := Some(size)))
  }

  /** After a resize the size is known without probing: it is exactly the requested box. */
  lemma ResizeThenGetSize(img: Image, size: Box, filter: Filter, probed: Box)
    requires Resize(img, size, filter).Done?
    ensures GetSize(Resize(img, size, filter).state, probed).0 == size
  {
  }

  /** The resize token reads back as the requested width and height. */
  lemma ResizeTokenDecodes(img: Image, size: Box, filter: Filter)
    ensures var t := Resize(img, size, filter).state.args.tokens;
            && |t| >= |img.args.tokens| + 2
            && t[|img.args.tokens|] == "-resize"
            && ParseDims(t[|img.args.tokens| + 1]) == Some((size.width as int, size.height as int))
  {
  }

  /** `rotate`: the background colour is accepted and ignored, and the cached size is kept. */
  function Rotate(img: Image, angle: string, background: Option<Color>): (r: Image)
    ensures Appended(img, r, ["-rotate", angle])
  {
    Append(img, ["-rotate", angle])
  }

  /** `profile`: the profile data goes to a temporary file, whose path is an input here. */
  function Profile(img: Image, tempPath: string): (r: Image)
    ensures Appended(img, r, ["-profile", tempPath])
  {
    Append(img, ["-profile", tempPath])
  }

  /** `interlace`: an unknown scheme throws and appends nothing. */
  function Interlace(img: Image, scheme: Interlace): (r: Outcome<Image>)
    ensures r.Threw? <==> scheme.UnknownInterlace?
    ensures r.Threw? ==> r.error == InvalidArgument && r.state == img
    ensures r.Done? ==> Appended(img, r.state, ["-interlace", InterlaceName(scheme).value])
  {
    match InterlaceName(scheme)
    case Failure(e) => Threw(img, e)
    case Success(name) => Done(Append(img, ["-interlace", name]))
  }

  // ---------------------------------------------------------------------
  // Palettes
  // ---------------------------------------------------------------------

  /** A colorspace table keyed by palette name; `setColorspace` can only
      name the `-type` of the three built-in palettes. */
  predicate CoversKnownNamesOnly(table: map<string, string>) {
    forall name :: name in table ==> KnownPaletteName(name)
  }

  /** The colorspace table the code reads, `static::$colorspaceMapping`, as
      it stands: Image.php declares no such property, so `isset` finds nothing. */
  const DeclaredColorspaces: map<string, string> := map[]

  /** The table evidently intended: each palette's ImageMagick colorspace
      name, the same names `Imagine::createPalette` reads back. */
  const Colorspaces: map<string, string> := map["rgb" := "sRGB", "cmyk" := "CMYK", "gray" := "Gray"]

  /** `setColorspace`: an unsupported palette throws before appending; a
      supported one appends its matte type and its colorspace. The stored
      palette is left as it is. */
  function SetColorspace(img: Image, target: Palette, table: map<string, string>): (r: Outcome<Image>)
    requires CoversKnownNamesOnly(table)
    ensures r.Threw? <==> PaletteName(target) !in table
    ensures r.Threw? ==> r.error == InvalidArgument && r.state == img
    ensures r.Done? ==> Appended(img, r.state, ["-type", MatteType(PaletteName(target)), "-colorspace", table[PaletteName(target)]])
  {
    var name := PaletteName(target);
    if name !in table then Threw(img, InvalidArgument)
    else Done(Append(img, ["-type", MatteType(name), "-colorspace", table[name]]))
  }

  /** `usePalette` against a given colorspace table: nothing happens when the
      palette names agree; otherwise the target's profile is appended first,
      so an unsupported palette throws with the profile tokens in place. */
  function UsePaletteWith(img: Image, target: Palette, profilePath: string, table: map<string, string>): (r: Outcome<Image>)
    requires CoversKnownNamesOnly(table)
    ensures r.state.palette == img.palette
    ensures PaletteName(target) == PaletteName(img.palette) ==> r == Done(img)
    ensures PaletteName(target) != PaletteName(img.palette) && PaletteName(target) !in table ==>
              r.Threw? && r.error == InvalidArgument && Appended(img, r.state, ["-profile", profilePath])
    ensures PaletteName(target) != PaletteName(img.palette) && PaletteName(target) in table ==>
              r.Done? && Appended(img, r.state, ["-profile", profilePath, "-type", MatteType(PaletteName(target)),
                                                 "-colorspace", table[PaletteName(target)]])
  {
    if PaletteName(img.palette) == PaletteName(target) then Done(img)
    else
      var img := Profile(img, profilePath);
      SetColorspace(img, target, table)
  }

  /** `usePalette` with the evidently intended colorspace table. */
  function UsePalette(img: Image, target: Palette, profilePath: string): (r: Outcome<Image>)
    ensures r.state.palette == img.palette
    ensures PaletteName(target) == PaletteName(img.palette) ==> r == Done(img)
    ensures PaletteName(target) != PaletteName(img.palette) ==>
              (r.Threw? <==> !KnownPaletteName(PaletteName(target)))
    ensures r.Threw? ==> r.error == InvalidArgument && Appended(img, r.state, ["-profile", profilePath])
    ensures target == PaletteGrayscale && PaletteName(img.palette) != PaletteName(target) ==>
              Appended(img, r.state, ["-profile", profilePath, "-type", "GrayscaleMate", "-colorspace", "Gray"])
    ensures target == PaletteCmyk && PaletteName(img.palette) != PaletteName(target) ==>
              Appended(img, r.state, ["-profile", profilePath, "-type", "TrueColorMatte", "-colorspace", "CMYK"])
    ensures target == PaletteRgb && PaletteName(img.palette) != PaletteName(target) ==>
              Appended(img, r.state, ["-profile", profilePath, "-type", "TrueColorMatte", "-colorspace", "sRGB"])
  {
    var name := PaletteName(target);
    assert name in Colorspaces ==>
             ["-profile", profilePath] + ["-type", MatteType(name), "-colorspace", Colorspaces[name]]
             == ["-profile", profilePath, "-type", MatteType(name), "-colorspace", Colorspaces[name]];
    UsePaletteWith(img, target, profilePath, Colorspaces)
  }

  /** `usePalette` as written, reading the undeclared table: every change of
      palette throws, after appending the profile. */
  function UsePaletteAsWritten(img: Image, target: Palette, profilePath: string): (r: Outcome<Image>)
    ensures r.state.palette == img.palette
    ensures PaletteName(target) == PaletteName(img.palette) ==> r == Done(img)
    ensures PaletteName(target) != PaletteName(img.palette) ==>
              r.Threw? && r.error == InvalidArgument && Appended(img, r.state, ["-profile", profilePath])
  {
    UsePaletteWith(img, target, profilePath, DeclaredColorspaces)
  }

  /** Converting an RGB image to CMYK: as written it throws after appending
      the profile; with the intended table it appends the CMYK colorspace. */
  lemma UsePaletteRgbToCmyk(img: Image, profilePath: string)
    requires img.palette == PaletteRgb
    ensures UsePaletteAsWritten(img, PaletteCmyk, profilePath).Threw?
    ensures UsePalette(img, PaletteCmyk, profilePath).Done?
    ensures UsePalette(img, PaletteCmyk, profilePath).state.args.tokens
            == img.args.tokens + ["-profile", profilePath, "-type", "TrueColorMatte", "-colorspace", "CMYK"]
  {
  }

  // ---------------------------------------------------------------------
  // Chains of simple editing calls
  // ---------------------------------------------------------------------

  /** One editing call that neither probes the size nor changes it. */
  datatype Edit =
    | EditFlop
    | EditFlip
    | EditStrip
    | EditRotate(angle: string)
    | EditProfile(tempPath: string)
    | EditInterlace(scheme: Interlace)

  /** The tokens each call contributes, or None when it throws: the
      per-operation mapping table, written out independently of the calls. */
  function EditTokens(e: Edit): Option<seq<string>> {
    match e
    case EditFlop => Some(["-flop"])
    case EditFlip => Some(["-flip"])
    case EditStrip => Some(["-strip"])
    case EditRotate(a) => Some(["-rotate", a])
    case EditProfile(p) => Some(["-profile", p])
    case EditInterlace(InterlaceNone) => Some(["-interlace", "none"])
    case EditInterlace(InterlaceLine) => Some(["-interlace", "line"])
    case EditInterlace(InterlacePlane) => Some(["-interlace", "plane"])
    case EditInterlace(InterlacePartition) => Some(["-interlace", "partition"])
    case EditInterlace(UnknownInterlace(_)) => None
  }

  function Apply(img: Image, e: Edit): Outcome<Image> {
    match e
    case EditFlop => Done(FlipHorizontally(img))
    case EditFlip => Done(FlipVertically(img))
    case EditStrip => Done(Strip(img))
    case EditRotate(a) => Done(Rotate(img, a, None))
    case EditProfile(p) => Done(Profile(img, p))
    case EditInterlace(s) => Interlace(img, s)
  }

  /** A fluent chain `$image->a()->b()…`: it stops at the first call that throws. */
  function ApplyAll(img: Image, es: seq<Edit>): Outcome<Image>
    decreases |es|
  {
    if es == [] then Done(img)
    else match Apply(img, es[0])
      case Threw(s, err) => Threw(s, err)
      case Done(s) => ApplyAll(s, es[1..])
  }

  /** How many leading calls of the chain succeed. */
  function Succeeding(es: seq<Edit>): nat
    decreases |es|
  {
    if es == [] || EditTokens(es[0]).None? then 0 else 1 + Succeeding(es[1..])
  }

  /** The tokens the succeeding leading calls contribute, in call order. */
  function Contributed(es: seq<Edit>): seq<string>
    decreases |es|
  {
    if es == [] || EditTokens(es[0]).None? then [] else EditTokens(es[0]).value + Contributed(es[1..])
  }

  lemma ApplyMatchesTable(img: Image, e: Edit)
    ensures EditTokens(e).Some? ==> Apply(img, e) == Done(Append(img, EditTokens(e).value))
    ensures EditTokens(e).None? ==> Apply(img, e) == Threw(img, InvalidArgument)
  {
  }

  /** A chain of simple edits appends exactly the concatenation of the
      calls' contributions, in call order, and changes nothing else; a call
      that throws ends the chain and appends nothing. */
  lemma {:induction false} ApplyAllAppendsContributions(img: Image, es: seq<Edit>)
    ensures ApplyAll(img, es).Done? <==> Succeeding(es) == |es|
    ensures ApplyAll(img, es).state == Append(img, Contributed(es))
    decreases |es|
  {
    if es == [] {
      AppendNothing(img);
    } else {
      ApplyMatchesTable(img, es[0]);
      match EditTokens(es[0])
      case None =>
        AppendNothing(img);
      case Some(c) =>
        ApplyAllAppendsContributions(Append(img, c), es[1..]);
        AppendTwice(img, c, Contributed(es[1..]));
    }
  }

  lemma AppendNothing(img: Image)
    ensures Append(img, []) == img
  {
    assert img.args.tokens + [] == img.args.tokens;
  }

  lemma AppendTwice(img: Image, c: seq<string>, d: seq<string>)
    ensures Append(Append(img, c), d) == Append(img, c + d)
  {
    assert img.args.tokens + c + d == img.args.tokens + (c + d);
  }

  /** A copy and its original are independent branches: each one's tokens
      are the shared prefix followed by its own calls' contributions only. */
  lemma CopyBranchesIndependently(img: Image, mine: seq<Edit>, theirs: seq<Edit>)
    ensures ApplyAll(img, mine).state.args.tokens == img.args.tokens + Contributed(mine)
    ensures ApplyAll(Copy(img), theirs).state.args.tokens == img.args.tokens + Contributed(theirs)
    ensures ApplyAll(Copy(img), theirs).state.palette == img.palette
  {
    ApplyAllAppendsContributions(img, mine);
    ApplyAllAppendsContributions(Copy(img), theirs);
  }

  // ---------------------------------------------------------------------
  // Saving
  // ---------------------------------------------------------------------

  /** `getArguments`: a copy of the argument array followed by `-format`,
      the optional `-quality` and the optional resolution block. The stored
      arguments are never modified; the layer controller is told to animate
      or merge before anything is validated, and to flatten at the end. */
  function GetArguments(img: Image, o: SaveOptions, path: string): (r: Call<Image, seq<string>>)
    ensures r.state.args == img.args && r.state.palette == img.palette && r.state.size == img.size
    ensures r.state.layers.count == img.layers.count
    ensures r.Raised? <==> Compression(o, SaveFormat(o, path, img.args.file)).Failure? || ResolutionTokens(o).Failure?
    ensures r.Raised? && Compression(o, SaveFormat(o, path, img.args.file)).Failure? ==> r.error == InvalidArgument
    ensures r.Raised? && Compression(o, SaveFormat(o, path, img.args.file)).Success? ==> r.error == ResolutionTokens(o).error
    ensures r.Raised? ==> r.state.layers.log == img.layers.log + [LayerRequest(o, SaveFormat(o, path, img.args.file))]
    ensures r.Returned? ==>
              r.state.layers.log == img.layers.log + [LayerRequest(o, SaveFormat(o, path, img.args.file))]
                                    + (if FlattenRequested(o, img.layers.count) then [Flatten] else [])
    ensures r.Returned? ==>
              r.value == Argv(img.args) + ["-format", ToLower(SaveFormat(o, path, img.args.file))]
                         + QualityTokens(Compression(o, SaveFormat(o, path, img.args.file)).value)
                         + ResolutionTokens(o).value
  {
    var arguments := Argv(img.args);
    var format := SaveFormat(o, path, img.args.file);
    var img := img.(layers := img.layers.(log := img.layers.log + [LayerRequest(o, format)]));
    var arguments := arguments + ["-format", ToLower(format)];
    match Compression(o, format)
    case Failure(e) => Raised(img, e)
    case Success(compression) =>
      var arguments := arguments + QualityTokens(compression);
      match ResolutionTokens(o)
      case Failure(e) => Raised(img, e)
      case Success(block) =>
        var arguments := arguments + block;
        var img := if FlattenRequested(o, img.layers.count)
                   then img.(layers := img.layers.(log := img.layers.log + [Flatten]))
                   else img;
        Returned(img, arguments)
  }

  /** A save makes exactly one of the animate/merge calls; an animated save
      never merges or flattens, any other save always merges. */
  lemma AnimateOrMerge(img: Image, o: SaveOptions, path: string)
    ensures var added := GetArguments(img, o, path).state.layers.log[|img.layers.log|..];
            && |added| >= 1
            && (Animated(o) <==> added[0].Animate?)
            && (!Animated(o) <==> added[0].Merge?)
            && (Animated(o) ==> added == [added[0]])
            && (Flatten in added <==> GetArguments(img, o, path).Returned? && FlattenRequested(o, img.layers.count))
  {
    var r := GetArguments(img, o, path);
    var request := LayerRequest(o, SaveFormat(o, path, img.args.file));
    var extra := if r.Returned? && FlattenRequested(o, img.layers.count) then [request, Flatten] else [request];
    assert r.state.layers.log == img.layers.log + extra;
    DropPrefix(img.layers.log, extra);
  }

  lemma DropPrefix<T>(p: seq<T>, e: seq<T>)
    ensures (p + e)[|p|..] == e
  {
  }

  /** `save`'s command line, before the process runs: the destination is the
      given path, else the opened file; without either it throws. The argv is
      the stored arguments, the planner's tokens, then the destination. */
  function SaveCommand(img: Image, path: Option<string>, o: SaveOptions): (r: Call<Image, seq<string>>)
    ensures path.None? && img.args.file.None? ==> r == Raised(img, RuntimeFailure)
    ensures path.Some? || img.args.file.Some? ==>
              var destination := if path.Some? then path.value else img.args.file.value;
              var planned := GetArguments(img, o, destination);
              && r.state == planned.state
              && (r.Raised? <==> planned.Raised?)
              && (r.Returned? ==> r.value == planned.value + [destination])
  {
    var path := if path.None? then img.args.file else path;
    match path
    case None => Raised(img, RuntimeFailure)
    case Some(p) =>
      match GetArguments(img, o, p)
      case Raised(s, e) => Raised(s, e)
      case Returned(s, arguments) => Returned(s, arguments + [p])
  }

  /** The whole command line of a save: `convert`, the opened file, the
      stored tokens in call order, `-format` with the lower-cased format, and
      the destination last; the stored tokens are unchanged by saving. */
  lemma SaveCommandShape(img: Image, path: string, o: SaveOptions)
    requires SaveCommand(img, Some(path), o).Returned?
    ensures var argv := SaveCommand(img, Some(path), o).value;
            var n := |Argv(img.args)|;
            && |argv| >= n + 3
            && argv[..n] == Argv(img.args)
            && argv[n] == "-format"
            && argv[n + 1] == ToLower(SaveFormat(o, path, img.args.file))
            && argv[|argv| - 1] == path
            && SaveCommand(img, Some(path), o).state.args == img.args
  {
    var r := SaveCommand(img, Some(path), o);
    var planned := GetArguments(img, o, path);
    assert planned.Returned? && r.value == planned.value + [path];
    var format := SaveFormat(o, path, img.args.file);
    CommandLayout(r.value, Argv(img.args), ToLower(format),
                  QualityTokens(Compression(o, format).value), ResolutionTokens(o).value, path);
  }

  /** Where the pieces of `stored + ["-format", format] + quality + resolution + [path]` sit. */
  lemma CommandLayout(argv: seq<string>, stored: seq<string>, format: string,
                      quality: seq<string>, resolution: seq<string>, path: string)
    requires argv == stored + ["-format", format] + quality + resolution + [path]
    ensures |argv| >= |stored| + 3
    ensures argv[..|stored|] == stored
    ensures argv[|stored|] == "-format" && argv[|stored| + 1] == format
    ensures argv[|argv| - 1] == path
  {
    assert argv == stored + (["-format", format] + quality + resolution + [path]);
  }

  /** Saving without a path writes back to the opened file. */
  lemma SaveDefaultsToOpenedFile(img: Image, o: SaveOptions)
    requires img.args.file.Some?
    ensures SaveCommand(img, None, o) == SaveCommand(img, img.args.file, o)
  {
  }

  /** `save`: the planned command runs (its success is an input) and a
      failed run throws a RuntimeException. */
  function Save(img: Image, path: Option<string>, o: SaveOptions, processSucceeded: bool): (r: Outcome<Image>)
    ensures r.state == SaveCommand(img, path, o).state
    ensures r.Done? <==> SaveCommand(img, path, o).Returned? && processSucceeded
    ensures SaveCommand(img, path, o).Returned? && !processSucceeded ==> r.error == RuntimeFailure
    ensures SaveCommand(img, path, o).Raised? ==> r.Threw? && r.error == SaveCommand(img, path, o).error
  {
    match SaveCommand(img, path, o)
    case Raised(s, e) => Threw(s, e)
    case Returned(s, _) => if processSucceeded then Done(s) else Threw(s, RuntimeFailure)
  }

  /** `get`: a save to a temporary file (an input here) with the `format`
      option set to the requested format; the value is the command line the
      save runs, whose success is an input as for `save`. It writes that
      format, whatever the temporary file's name or the opened file say. It
      throws the rejected rule's error when the compression for that format
      or the resolution block is rejected, and RuntimeException when the run fails. */
  function Get(img: Image, format: string, o: SaveOptions, tempPath: string, processSucceeded: bool): (r: Call<Image, seq<string>>)
    ensures r.state.args == img.args && r.state.palette == img.palette
    ensures r.Raised? <==> Compression(o, format).Failure? || ResolutionTokens(o).Failure? || !processSucceeded
    ensures Compression(o, format).Failure? ==> r.Raised? && r.error == Compression(o, format).error
    ensures Compression(o, format).Success? && ResolutionTokens(o).Failure? ==> r.Raised? && r.error == ResolutionTokens(o).error
    ensures Compression(o, format).Success? && ResolutionTokens(o).Success? && !processSucceeded ==>
              r.Raised? && r.error == RuntimeFailure
    ensures r.Returned? ==>
              var n := |Argv(img.args)|;
              && |r.value| >= n + 3
              && r.value[..n] == Argv(img.args)
              && r.value[n] == "-format"
              && r.value[n + 1] == ToLower(format)
              && r.value[|r.value| - 1] == tempPath
  {
    var o' := o.(format := Some(format));
    assert SaveFormat(o', tempPath, img.args.file) == format;
    assert Compression(o', format) == Compression(o, format);
    assert ResolutionTokens(o') == ResolutionTokens(o);
    var planned := SaveCommand(img, Some(tempPath), o');
    if planned.Raised? then planned
    else if !processSucceeded then Raised(planned.state, RuntimeFailure)
    else SaveCommandShape(img, tempPath, o'); planned
  }

  /** `show`: the MIME type is looked up first, so an unknown format throws
      before anything is saved; then `get` runs, and its error passes through. */
  function Show(img: Image, format: string, o: SaveOptions, tempPath: string, processSucceeded: bool): (r: Call<Image, (string, seq<string>)>)
    ensures MimeType(format).Failure? ==> r == Raised(img, RuntimeFailure)
    ensures MimeType(format).Success? ==>
              var got := Get(img, format, o, tempPath, processSucceeded);
              && r.state == got.state
              && (r.Returned? <==> got.Returned?)
              && (r.Raised? ==> r.error == got.error)
              && (r.Returned? ==> r.value == (MimeType(format).value, got.value))
  {
    match MimeType(format)
    case Failure(e) => Raised(img, e)
    case Success(mime) =>
      match Get(img, format, o, tempPath, processSucceeded)
      case Raised(s, e) => Raised(s, e)
      case Returned(s, argv) => Returned(s, (mime, argv))
  }
}

=== FILE: imagine.dfy ===
/** The driver's entry point (src/ImageMagick/Imagine.php), reduced to the
    decisions it makes around the external programs: the version gate of
    the constructor, the reading of the version banner, the mapping from
    the colorspace `identify` reports to a palette, and the argument record
    a freshly opened or loaded image starts from. What the programs print
    and the temporary paths the driver creates are inputs.
 */
module Imagine {
  import opened Outcomes
  import opened Text
  import opened Tables
  import opened Images

  const DefaultConvertBin := "/usr/bin/convert"
  const DefaultIdentifyBin := "/usr/bin/identify"

  datatype Imagine = Imagine(convertBin: string, identifyBin: string)

  // ---------------------------------------------------------------------
  // Palettes (createPalette)
  // ---------------------------------------------------------------------

  /** The palette for the colorspace `identify -format %[colorspace]` printed. */
  function CreatePalette(identifyOutput: string): (r: Result<Palette>)
    ensures Trim(identifyOutput) == "RGB" || Trim(identifyOutput) == "sRGB" <==> r == Success(PaletteRgb)
    ensures Trim(identifyOutput) == "CMYK" <==> r == Success(PaletteCmyk)
    ensures Trim(identifyOutput) == "Gray" <==> r == Success(PaletteGrayscale)
    ensures r.Failure? <==> Trim(identifyOutput) !in {"RGB", "sRGB", "CMYK", "Gray"}
    ensures r.Failure? ==> r.error == NotSupported
  {
    match Trim(identifyOutput)
    case "RGB" => Success(PaletteRgb)
    case "sRGB" => Success(PaletteRgb)
    case "CMYK" => Success(PaletteCmyk)
    case "Gray" => Success(PaletteGrayscale)
    case _ => Failure(NotSupported)
  }

  /** The colorspace `usePalette` selects for a built-in palette is one
      `createPalette` reads back as that same palette. */
  lemma ColorspacesRoundTrip(p: Palette)
    requires !p.OtherPalette?
    ensures PaletteName(p) in Colorspaces
    ensures CreatePalette(Colorspaces[PaletteName(p)]) == Success(p)
  {
    TrimOfTrimmed(Colorspaces[PaletteName(p)]);
  }

  // ---------------------------------------------------------------------
  // The version banner (getVersion)
  // ---------------------------------------------------------------------

  const Marker := "ImageMagick "

  /** The pattern `ImageMagick ([^\s]+)` matches at position `i`. */
  predicate MatchAt(s: string, i: nat) {
    i + |Marker| < |s| && s[i..i + |Marker|] == Marker && !IsSpace(s[i + |Marker|])
  }

  /** The leftmost position from `from` on where the pattern matches. */
  function FirstMatch(s: string, from: nat): (r: Option<nat>)
    requires from <= |s|
    ensures r.Some? ==> from <= r.value < |s| && MatchAt(s, r.value)
    ensures r.Some? ==> forall k :: from <= k < r.value ==> !MatchAt(s, k)
    ensures r.None? ==> forall k :: from <= k < |s| ==> !MatchAt(s, k)
    decreases |s| - from
  {
    if from == |s| then None
    else if MatchAt(s, from) then Some(from)
    else FirstMatch(s, from + 1)
  }

  /** The end of the run of non-whitespace characters starting at `start`. */
  function RunEnd(s: string, start: nat): (e: nat)
    requires start <= |s|
    ensures start <= e <= |s|
    ensures forall k :: start <= k < e ==> !IsSpace(s[k])
    ensures e == |s| || IsSpace(s[e])
    decreases |s| - start
  {
    if start == |s| || IsSpace(s[start]) then start else RunEnd(s, start + 1)
  }

  /** `getVersion`: the non-whitespace run after the first `ImageMagick `
      that is followed by one; without such a run it throws. */
  function GetVersion(output: string): (r: Result<string>)
    ensures r.Failure? <==> forall k :: 0 <= k < |output| ==> !MatchAt(output, k)
    ensures r.Failure? ==> r.error == RuntimeFailure
    ensures r.Success? ==>
              && FirstMatch(output, 0).Some?
              && |r.value| > 0
              && (forall i :: 0 <= i < |r.value| ==> !IsSpace(r.value[i]))
              && var j := FirstMatch(output, 0).value;
                 var e := j + |Marker| + |r.value|;
                 && e <= |output|
                 && output[j..e] == Marker + r.value
                 && (e == |output| || IsSpace(output[e]))
  {
    match FirstMatch(output, 0)
    case None => Failure(RuntimeFailure)
    case Some(j) =>
      var start := j + |Marker|;
      var v := output[start..RunEnd(output, start)];
      assert output[j..start + |v|] == output[j..start] + v;
      Success(v)
  }

  // ---------------------------------------------------------------------
  // The version gate (__construct)
  // ---------------------------------------------------------------------

  /** The length of the run of digits at the start of `s`. */
  function LeadingDigits(s: string): (k: nat)
    ensures k <= |s| && AllDigits(s[..k])
    ensures k == |s| || !IsDigit(s[k])
    decreases |s|
  {
    if |s| == 0 || !IsDigit(s[0]) then 0
    else
      var k := 1 + LeadingDigits(s[1..]);
      assert s[..k] == [s[0]] + s[1..][..k - 1];
      k
  }

  /** The numeric components of a version string: its maximal runs of digits, in order. */
  function Components(s: string): (r: seq<nat>)
    ensures |r| <= |s|
    ensures (forall i :: 0 <= i < |s| ==> !IsDigit(s[i])) ==> r == []
    ensures |s| > 0 && AllDigits(s) ==> r == [DigitsValue(s)]
    decreases |s|
  {
    if |s| == 0 then []
    else if !IsDigit(s[0]) then
      assert forall i :: 0 <= i < |s| - 1 ==> s[1..][i] == s[i + 1];
      Components(s[1..])
    else
      var k := LeadingDigits(s);
      assert AllDigits(s) ==> k == |s| && s[..k] == s;
      [DigitsValue(s[..k])] + Components(s[k..])
  }

  /** Dot-separated decimal components, as a version is usually printed. */
  function JoinVersion(cs: seq<nat>): string
    decreases |cs|
  {
    if |cs| == 0 then ""
    else if |cs| == 1 then NatToString(cs[0])
    else NatToString(cs[0]) + "." + JoinVersion(cs[1..])
  }

  lemma JoinVersionChars(cs: seq<nat>)
    ensures forall i :: 0 <= i < |JoinVersion(cs)| ==> JoinVersion(cs)[i] == '.' || IsDigit(JoinVersion(cs)[i])
    ensures |cs| > 0 ==> |JoinVersion(cs)| > 0 && IsDigit(JoinVersion(cs)[0])
  {
  }

  lemma ComponentsOfLeadingNumber(n: nat, t: string)
    requires t == [] || !IsDigit(t[0])
    ensures Components(NatToString(n) + t) == [n] + Components(t)
  {
    var d := NatToString(n);
    var s := d + t;
    LeadingDigitsOfDigits(d, t);
    assert s[..|d|] == d;
    assert s[|d|..] == t;
    DigitsValueOfNatToString(n);
  }

  lemma {:induction false} LeadingDigitsOfDigits(d: string, t: string)
    requires |d| > 0 && AllDigits(d)
    requires t == [] || !IsDigit(t[0])
    ensures LeadingDigits(d + t) == |d|
    decreases |d|
  {
    var s := d + t;
    assert s[0] == d[0];
    if |d| > 1 {
      assert s[1..] == d[1..] + t;
      LeadingDigitsOfDigits(d[1..], t);
    } else {
      assert s[1..] == t;
    }
  }

  /** Reading the components of a dotted version gives back the numbers it was printed from. */
  lemma {:induction false} ComponentsOfJoinVersion(cs: seq<nat>)
    ensures Components(JoinVersion(cs)) == cs
    decreases |cs|
  {
    if |cs| == 1 {
      assert NatToString(cs[0]) + "" == NatToString(cs[0]);
      ComponentsOfLeadingNumber(cs[0], "");
    } else if |cs| > 1 {
      var rest := JoinVersion(cs[1..]);
      var tail := "." + rest;
      assert JoinVersion(cs) == NatToString(cs[0]) + tail;
      ComponentsOfLeadingNumber(cs[0], tail);
      assert tail[1..] == rest;
      assert Components(tail) == Components(rest);
      ComponentsOfJoinVersion(cs[1..]);
      assert cs == [cs[0]] + cs[1..];
    }
  }

  /** Lexicographic order on version components: a proper prefix comes first. */
  function LexLess(a: seq<nat>, b: seq<nat>): (r: bool)
    ensures r ==> a != b && |b| > 0
    ensures |a| < |b| && a == b[..|a|] ==> r
    decreases |a|
  {
    assert |a| > 0 && |a| < |b| && a == b[..|a|] ==> a[1..] == b[1..][..|a| - 1];
    |b| > 0 && (|a| == 0 || a[0] < b[0] || (a[0] == b[0] && LexLess(a[1..], b[1..])))
  }

  /** Never both ways round. */
  lemma {:induction false} LexLessAsymmetric(a: seq<nat>, b: seq<nat>)
    ensures LexLess(a, b) ==> !LexLess(b, a)
    decreases |a|
  {
    if |a| > 0 && |b| > 0 && a[0] == b[0] {
      LexLessAsymmetric(a[1..], b[1..]);
    }
  }

  /** Two different versions are always ordered one way or the other. */
  lemma {:induction false} LexLessTotal(a: seq<nat>, b: seq<nat>)
    requires a != b
    ensures LexLess(a, b) || LexLess(b, a)
    decreases |a|
  {
    if |a| > 0 && |b| > 0 && a[0] == b[0] {
      assert a == [a[0]] + a[1..] && b == [b[0]] + b[1..];
      LexLessTotal(a[1..], b[1..]);
    }
  }

  const MinimumVersion: seq<nat> := [6, 2, 9]

  /** `__construct`: reads the version banner of `convert --version` and
      refuses any version below 6.2.9. */
  function New(convertBin: string, identifyBin: string, versionOutput: string): (r: Result<Imagine>)
    ensures r.Success? <==> GetVersion(versionOutput).Success?
                            && !LexLess(Components(GetVersion(versionOutput).value), MinimumVersion)
    ensures r.Success? ==> r.value == Imagine(convertBin, identifyBin)
    ensures r.Failure? ==> r.error == RuntimeFailure
  {
    match GetVersion(versionOutput)
    case Failure(e) => Failure(e)
    case Success(version) =>
      if LexLess(Components(version), MinimumVersion) then Failure(RuntimeFailure)
      else Success(Imagine(convertBin, identifyBin))
  }

  /** The run end is the only position closing a run of non-whitespace that starts at `start`. */
  lemma RunEndIsUnique(s: string, start: nat, end: nat)
    requires start <= end <= |s|
    requires forall k :: start <= k < end ==> !IsSpace(s[k])
    requires end == |s| || IsSpace(s[end])
    ensures RunEnd(s, start) == end
  {
  }

  lemma MatchStartsWithI(s: string, k: nat)
    ensures MatchAt(s, k) ==> s[k] == 'I'
  {
    if MatchAt(s, k) {
      assert s[k] == s[k..k + |Marker|][0];
    }
  }

  /** No match starts inside a prefix that holds no 'I'. */
  lemma NoMatchBefore(prefix: string, s: string)
    requires 'I' !in prefix
    requires |prefix| <= |s| && s[..|prefix|] == prefix
    ensures forall k :: 0 <= k < |prefix| ==> !MatchAt(s, k)
  {
    forall k | 0 <= k < |prefix|
      ensures !MatchAt(s, k)
    {
      assert s[k] == prefix[k];
      MatchStartsWithI(s, k);
    }
  }

  /** The first match is the match with no match before it. */
  lemma FirstMatchIsUnique(s: string, j: nat)
    requires MatchAt(s, j)
    requires forall k :: 0 <= k < j ==> !MatchAt(s, k)
    ensures FirstMatch(s, 0) == Some(j)
  {
  }

  /** The version is the non-whitespace run after the first match. */
  lemma VersionAt(s: string, j: nat, v: string)
    requires |v| > 0 && forall i :: 0 <= i < |v| ==> !IsSpace(v[i])
    requires j + |Marker| + |v| <= |s|
    requires s[j..j + |Marker|] == Marker && s[j + |Marker|..j + |Marker| + |v|] == v
    requires j + |Marker| + |v| == |s| || IsSpace(s[j + |Marker| + |v|])
    requires forall k :: 0 <= k < j ==> !MatchAt(s, k)
    ensures GetVersion(s) == Success(v)
  {
    var start := j + |Marker|;
    var e := start + |v|;
    assert s[start] == v[0];
    assert MatchAt(s, j);
    FirstMatchIsUnique(s, j);
    forall k | start <= k < e
      ensures !IsSpace(s[k])
    {
      assert s[k] == v[k - start];
    }
    RunEndIsUnique(s, start, e);
    GetVersionOfMatch(s, j, e);
  }

  /** Once the first match and the end of its run are known, the version is the slice between them. */
  lemma GetVersionOfMatch(s: string, j: nat, e: nat)
    requires FirstMatch(s, 0) == Some(j)
    requires j + |Marker| <= |s| && RunEnd(s, j + |Marker|) == e
    ensures GetVersion(s) == Success(s[j + |Marker|..e])
  {
  }

  lemma BannerSlices(prefix: string, v: string, rest: string)
    ensures var s := prefix + Marker + v + rest;
            var j := |prefix|;
            && s[..j] == prefix
            && s[j..j + |Marker|] == Marker
            && s[j + |Marker|..j + |Marker| + |v|] == v
            && (j + |Marker| + |v| < |s| ==> s[j + |Marker| + |v|] == rest[0])
  {
  }

  /** A banner whose first `ImageMagick ` is followed by a dotted version
      yields exactly that version. */
  lemma VersionOfBanner(prefix: string, cs: seq<nat>, rest: string)
    requires 'I' !in prefix
    requires |cs| > 0
    requires rest == [] || IsSpace(rest[0])
    ensures GetVersion(prefix + Marker + JoinVersion(cs) + rest) == Success(JoinVersion(cs))
  {
    var v := JoinVersion(cs);
    JoinVersionChars(cs);
    assert forall i :: 0 <= i < |v| ==> !IsSpace(v[i]);
    BannerVersion(prefix, v, rest);
  }

  lemma BannerVersion(prefix: string, v: string, rest: string)
    requires 'I' !in prefix
    requires |v| > 0 && forall i :: 0 <= i < |v| ==> !IsSpace(v[i])
    requires rest == [] || IsSpace(rest[0])
    ensures GetVersion(prefix + Marker + v + rest) == Success(v)
  {
    var s := prefix + Marker + v + rest;
    BannerSlices(prefix, v, rest);
    NoMatchBefore(prefix, s);
    VersionAt(s, |prefix|, v);
  }

  /** Three components reach the minimum exactly when they are at least 6.2.9. */
  lemma AtLeastMinimum(a: nat, b: nat, c: nat)
    ensures !LexLess([a, b, c], MinimumVersion) <==> a > 6 || (a == 6 && (b > 2 || (b == 2 && c >= 9)))
  {
    var v := [a, b, c];
    assert v[1..] == [b, c] && v[1..][1..] == [c] && v[1..][1..][1..] == [];
    assert MinimumVersion[1..] == [2, 9] && MinimumVersion[1..][1..] == [9] && MinimumVersion[1..][1..][1..] == [];
    assert LexLess([c], [9]) <==> c < 9;
    assert LexLess([b, c], [2, 9]) <==> b < 2 || (b == 2 && c < 9);
  }

  /** With a banner such as `Version: ImageMagick a.b.c Q16`, the
      constructor succeeds exactly when a.b.c is at least 6.2.9. */
  lemma VersionGate(prefix: string, a: nat, b: nat, c: nat, rest: string)
    requires 'I' !in prefix
    requires rest == [] || IsSpace(rest[0])
    ensures New(DefaultConvertBin, DefaultIdentifyBin, prefix + Marker + JoinVersion([a, b, c]) + rest).Success?
            <==> a > 6 || (a == 6 && (b > 2 || (b == 2 && c >= 9)))
  {
    var banner := prefix + Marker + JoinVersion([a, b, c]) + rest;
    VersionOfBanner(prefix, [a, b, c], rest);
    ComponentsOfJoinVersion([a, b, c]);
    assert Components(GetVersion(banner).value) == [a, b, c];
    AtLeastMinimum(a, b, c);
  }

  // ---------------------------------------------------------------------
  // Opening and loading
  // ---------------------------------------------------------------------

  /** `open`: a remote file is first copied to a temporary path; the image
      starts from `['convert' => binary, 'file' => path]`, no tokens, and the
      palette `identify` reports, whose failure propagates. */
  function Open(im: Imagine, path: string, isLocal: bool, tempPath: string, identifyOutput: string, layerCount: nat): (r: Result<Image>)
    ensures r.Success? <==> CreatePalette(identifyOutput).Success?
    ensures r.Failure? ==> r.error == NotSupported
    ensures r.Success? ==>
              && r.value.args == Args(im.convertBin, Some(if isLocal then path else tempPath), [])
              && Argv(r.value.args) == [im.convertBin, if isLocal then path else tempPath]
              && r.value.palette == CreatePalette(identifyOutput).value
              && r.value.size.None?
              && r.value.layers == Layers(layerCount, [])
  {
    var file := if isLocal then path else tempPath;
    match CreatePalette(identifyOutput)
    case Failure(e) => Failure(e)
    case Success(palette) => Success(NewImage(Args(im.convertBin, Some(file), []), palette, layerCount))
  }

  /** `open` as written: the image is built and then dropped, since the
      method has no `return`, so the caller receives null. */
  function OpenAsWritten(im: Imagine, path: string, isLocal: bool, tempPath: string, identifyOutput: string, layerCount: nat): (r: Result<Option<Image>>)
    ensures r.Failure? <==> CreatePalette(identifyOutput).Failure?
  {
    match Open(im, path, isLocal, tempPath, identifyOutput, layerCount)
    case Failure(e) => Failure(e)
    case Success(_) => Success(None)
  }

  /** As written, no successful `open` hands its image to the caller. */
  lemma OpenAsWrittenReturnsNothing(im: Imagine, path: string, isLocal: bool, tempPath: string, identifyOutput: string, layerCount: nat)
    requires Open(im, path, isLocal, tempPath, identifyOutput, layerCount).Success?
    ensures OpenAsWritten(im, path, isLocal, tempPath, identifyOutput, layerCount) == Success(None)
  {
  }

  /** `load`: the bytes go to a temporary file (its path is an input) that the image is opened from. */
  function Load(im: Imagine, tempPath: string, identifyOutput: string, layerCount: nat): (r: Result<Image>)
    ensures r.Success? <==> CreatePalette(identifyOutput).Success?
    ensures r.Failure? ==> r.error == NotSupported
    ensures r.Success? ==>
              && Argv(r.value.args) == [im.convertBin, tempPath]
              && r.value.args.tokens == []
              && r.value.palette == CreatePalette(identifyOutput).value
              && r.value.size.None?
  {
    match CreatePalette(identifyOutput)
    case Failure(e) => Failure(e)
    case Success(palette) => Success(NewImage(Args(im.convertBin, Some(tempPath), []), palette, layerCount))
  }
}

=== FILE: outcomes.dfy ===
/** Failure-carrying values shared by every module of the model.

    The PHP classes are mutable objects whose methods either return or
    throw. A method that throws may already have changed its object (the
    source appends some tokens before it validates the rest), so a call is
    modelled as the object's state AFTER the call together with the
    exception it raised, if any.
 */
module Outcomes {

  datatype Option<+T> = None | Some(value: T) {
    /** The wrapped value, or `default` when there is none (PHP's `isset($x) ? $x : default`). */
    function GetOr(default: T): T {
      match this
      case Some(v) => v
      case None => default
    }
  }

  /** The exception classes the core throws. */
  datatype Error =
    | InvalidArgument   // Imagine\Exception\InvalidArgumentException
    | OutOfBounds       // Imagine\Exception\OutOfBoundsException
    | NotSupported      // Imagine\Exception\NotSupportedException
    | RuntimeFailure    // Imagine\Exception\RuntimeException

  /** A pure computation that either yields a value or throws. */
  datatype Result<+T> = Success(value: T) | Failure(error: Error)

  /** A call of a method returning `$this`: the object's state afterwards, and the exception if one was thrown. */
  datatype Outcome<+S> = Done(state: S) | Threw(state: S, error: Error)

  /** A call of a method returning a value: the object's state afterwards, and the value or the exception. */
  datatype Call<+S, +T> = Returned(state: S, value: T) | Raised(state: S, error: Error)
}

=== FILE: planner.dfy ===
/** The save planner's pure decisions (`Image::getArguments`,
    src/ImageMagick/Image.php:452-553): the save options record, format
    resolution, the layer request, the compression value and the
    resolution block. `Images.GetArguments` puts them together.
 */
module SavePlanner {
  import opened Outcomes
  import opened Text
  import opened Geometry
  import opened Tables

  /** The `$options` array of `save`; `None` stands for a key that is not set (or set to null). */
  datatype SaveOptions = SaveOptions(
    format: Option<string>,
    quality: Option<int>,
    jpegQuality: Option<int>,
    pngCompressionLevel: Option<int>,
    pngCompressionFilter: Option<int>,
    resolutionUnits: Option<ResolutionUnit>,
    resolutionX: Option<int>,
    resolutionY: Option<int>,
    resamplingFilter: Option<Filter>,
    animated: Option<bool>,
    animatedDelay: Option<int>,
    animatedLoops: Option<int>,
    flatten: Option<bool>)

  /** `array()`: no option set. */
  const NoOptions := SaveOptions(None, None, None, None, None, None, None, None, None, None, None, None, None)

  /** `isset($options['animated']) && true === $options['animated']`. */
  predicate Animated(o: SaveOptions) {
    o.animated == Some(true)
  }

  // ---------------------------------------------------------------------
  // Format resolution
  // ---------------------------------------------------------------------

  /** `pathinfo($this->arguments['file'], PATHINFO_EXTENSION)`; an image without a file yields "". */
  function FileExtension(file: Option<string>): (e: string)
    ensures file.None? ==> e == ""
    ensures '.' !in e && '/' !in e
    ensures file.Some? && '.' !in Basename(file.value) ==> e == ""
  {
    match file
    case Some(f) => Extension(f)
    case None => ""
  }

  /** An image opened from `stem.ext` has extension `ext`. */
  lemma FileExtensionOfSuffix(stem: string, ext: string)
    requires '.' !in ext && '/' !in ext
    ensures FileExtension(Some(stem + "." + ext)) == ext
  {
    ExtensionOfSuffix(stem, ext);
  }

  /** The format a save writes: the explicit option, else the destination's
      extension, else the opened file's extension; an animated save uses the
      explicit option or "gif" whatever the paths say. */
  function SaveFormat(o: SaveOptions, path: string, file: Option<string>): (f: string)
    ensures Animated(o) ==> f == o.format.GetOr("gif")
    ensures !Animated(o) && o.format.Some? ==> f == o.format.value
    ensures !Animated(o) && o.format.None? && Extension(path) != "" ==> f == Extension(path)
    ensures !Animated(o) && o.format.None? && Extension(path) == "" ==> f == FileExtension(file)
  {
    var format :=
      if o.format.Some? then o.format.value
      else if Extension(path) != "" then Extension(path)
      else FileExtension(file);
    if Animated(o) then o.format.GetOr("gif") else format
  }

  /** Saving to `stem.ext` without a format option writes format `ext`. */
  lemma SaveFormatOfExtension(o: SaveOptions, stem: string, ext: string, file: Option<string>)
    requires !Animated(o) && o.format.None?
    requires ext != "" && '.' !in ext && '/' !in ext
    ensures SaveFormat(o, stem + "." + ext, file) == ext
  {
    ExtensionOfSuffix(stem, ext);
  }

  // ---------------------------------------------------------------------
  // Layers
  // ---------------------------------------------------------------------

  /** What the image's layer controller is told during a save. The Layers
      class and `Image::flatten` are not part of this model; their calls are
      recorded as events. */
  datatype LayerEvent =
    | Animate(format: string, delay: Option<int>, loops: int)
    | Merge
    | Flatten

  /** Animated saves ask for an animation (loops default to 0, the delay may stay unset); all others ask for a merge. */
  function LayerRequest(o: SaveOptions, format: string): (e: LayerEvent)
    ensures e.Flatten? == false
    ensures e.Merge? <==> !Animated(o)
    ensures e.Animate? ==> e == Animate(format, o.animatedDelay, o.animatedLoops.GetOr(0))
  {
    if Animated(o) then Animate(format, o.animatedDelay, o.animatedLoops.GetOr(0)) else Merge
  }

  /** Flattening runs when the `flatten` option is unset or exactly true (an
      animated save overwrites it with false) and there is more than one layer. */
  function FlattenRequested(o: SaveOptions, layerCount: nat): (b: bool)
    ensures Animated(o) || o.flatten == Some(false) || layerCount <= 1 ==> !b
    ensures !Animated(o) && o.flatten != Some(false) && layerCount > 1 ==> b
  {
    !Animated(o) && o.flatten.GetOr(true) && layerCount > 1
  }

  // ---------------------------------------------------------------------
  // Compression
  // ---------------------------------------------------------------------

  predicate IsJpegFormat(format: string) {
    format == "jpeg" || format == "jpg" || format == "pjpeg"
  }

  /** The `jpeg_quality` rule applies: the option is set and the (not lower-cased) format is a JPEG one. */
  predicate JpegRuleApplies(o: SaveOptions, format: string) {
    o.jpegQuality.Some? && IsJpegFormat(format)
  }

  /** The PNG rule applies: a PNG option is set and the format is exactly "png". */
  predicate PngRuleApplies(o: SaveOptions, format: string) {
    (o.pngCompressionLevel.Some? || o.pngCompressionFilter.Some?) && format == "png"
  }

  predicate IsDecimalDigit(n: int) {
    0 <= n <= 9
  }

  /** The compression value, computed as the source does: `quality` first,
      then overridden by `jpeg_quality`, then by the PNG options. The
      contract states the same thing the other way round: the last
      applicable rule wins. */
  function Compression(o: SaveOptions, format: string): (r: Result<Option<int>>)
    ensures r.Failure? <==> PngRuleApplies(o, format)
                            && (!IsDecimalDigit(o.pngCompressionLevel.GetOr(7)) || !IsDecimalDigit(o.pngCompressionFilter.GetOr(5)))
    ensures r.Failure? ==> r.error == InvalidArgument
    ensures PngRuleApplies(o, format) && r.Success? ==>
              r.value == Some(10 * o.pngCompressionLevel.GetOr(7) + o.pngCompressionFilter.GetOr(5))
    ensures !PngRuleApplies(o, format) && JpegRuleApplies(o, format) ==> r == Success(o.jpegQuality)
    ensures !PngRuleApplies(o, format) && !JpegRuleApplies(o, format) ==> r == Success(o.quality)
  {
    var compression := o.quality;
    var compression := if JpegRuleApplies(o, format) then o.jpegQuality else compression;
    if !PngRuleApplies(o, format) then Success(compression)
    else if o.pngCompressionLevel.Some? && !IsDecimalDigit(o.pngCompressionLevel.value) then Failure(InvalidArgument)
    else
      var tens := if o.pngCompressionLevel.Some? then o.pngCompressionLevel.value * 10 else 70;
      if o.pngCompressionFilter.Some? && !IsDecimalDigit(o.pngCompressionFilter.value) then Failure(InvalidArgument)
      else Success(Some(tens + if o.pngCompressionFilter.Some? then o.pngCompressionFilter.value else 5))
  }

  /** The PNG quality value is a two-digit code: its tens digit is the
      compression level and its units digit the filter. */
  lemma PngQualityDigits(o: SaveOptions)
    requires PngRuleApplies(o, "png") && Compression(o, "png").Success?
    ensures Compression(o, "png").value.Some?
    ensures 0 <= Compression(o, "png").value.value <= 99
    ensures Compression(o, "png").value.value / 10 == o.pngCompressionLevel.GetOr(7)
    ensures Compression(o, "png").value.value % 10 == o.pngCompressionFilter.GetOr(5)
  {
  }

  /** Level 3 and filter 8 give 38; filter 2 alone gives 72; no option gives no value. */
  lemma PngQualityExamples()
    ensures Compression(NoOptions.(pngCompressionLevel := Some(3), pngCompressionFilter := Some(8)), "png") == Success(Some(38))
    ensures Compression(NoOptions.(pngCompressionFilter := Some(2)), "png") == Success(Some(72))
    ensures Compression(NoOptions, "png") == Success(None)
  {
  }

  /** The PNG options are ignored, even out of range, unless the format is exactly "png". */
  lemma PngOptionsNeedExactFormat(o: SaveOptions, format: string)
    requires format != "png"
    ensures Compression(o, format).Success?
    ensures Compression(o, format).value == if JpegRuleApplies(o, format) then o.jpegQuality else o.quality
  {
  }

  /** `-quality` and its value, when a compression value was chosen. */
  function QualityTokens(compression: Option<int>): (t: seq<string>)
    ensures compression.None? <==> t == []
    ensures compression.Some? ==> |t| == 2 && t[0] == "-quality" && ParseInt(t[1]) == compression
  {
    match compression
    case None => []
    case Some(q) => ParseIntOfIntToString(q); ["-quality", IntToString(q)]
  }

  // ---------------------------------------------------------------------
  // Resolution
  // ---------------------------------------------------------------------

  /** All three resolution options are set. */
  predicate ResolutionRequested(o: SaveOptions) {
    o.resolutionUnits.Some? && o.resolutionX.Some? && o.resolutionY.Some?
  }

  /** `resampling-filter`, or the undefined filter when the option is empty (unset, "" or "0"). */
  function ResamplingFilter(o: SaveOptions): (f: Filter)
    ensures o.resamplingFilter.None? ==> f == FilterUndefined
    ensures o.resamplingFilter == Some(UnknownFilter("")) || o.resamplingFilter == Some(UnknownFilter("0")) ==> f == FilterUndefined
    ensures f != FilterUndefined ==> o.resamplingFilter == Some(f) && f != UnknownFilter("") && f != UnknownFilter("0")
  {
    match o.resamplingFilter
    case None => FilterUndefined
    case Some(f) => if f == UnknownFilter("") || f == UnknownFilter("0") then FilterUndefined else f
  }

  /** The `-units/-density/-resample/-filter` block. */
  function ResolutionTokens(o: SaveOptions): (r: Result<seq<string>>)
    ensures !ResolutionRequested(o) ==> r == Success([])
    ensures ResolutionRequested(o) && o.resolutionUnits.value.UnknownResolution? ==> r == Failure(RuntimeFailure)
    ensures ResolutionRequested(o) && !o.resolutionUnits.value.UnknownResolution? ==>
              (r.Failure? <==> ResamplingFilter(o).UnknownFilter?) && (r.Failure? ==> r.error == InvalidArgument)
    ensures ResolutionRequested(o) && r.Success? ==>
              var xy := Dims(o.resolutionX.value, o.resolutionY.value);
              var filter := FilterName(ResamplingFilter(o)).value;
              && |r.value| >= 6
              && r.value[..6] == ["-units", UnitName(o.resolutionUnits.value).value, "-density", xy, "-resample", xy]
              && r.value[6..] == (if filter == "" then [] else ["-filter", filter])
  {
    if !ResolutionRequested(o) then Success([])
    else match UnitName(o.resolutionUnits.value)
      case Failure(e) => Failure(e)
      case Success(units) =>
        var xy := Dims(o.resolutionX.value, o.resolutionY.value);
        var block := ["-units", units, "-density", xy, "-resample", xy];
        match FilterName(ResamplingFilter(o))
        case Failure(e) => Failure(e)
        case Success(filter) => Success(if filter != "" then block + ["-filter", filter] else block)
  }

  /** The density and resample values read back as the requested resolution. */
  lemma ResolutionTokensDecode(o: SaveOptions)
    requires ResolutionRequested(o) && ResolutionTokens(o).Success?
    ensures ParseDims(ResolutionTokens(o).value[3]) == Some((o.resolutionX.value, o.resolutionY.value))
    ensures ResolutionTokens(o).value[5] == ResolutionTokens(o).value[3]
  {
    assert ResolutionTokens(o).value[3] == ResolutionTokens(o).value[..6][3];
    assert ResolutionTokens(o).value[5] == ResolutionTokens(o).value[..6][5];
  }

  /** Pixels per inch at 300x300 without a resampling filter. */
  lemma ResolutionExample()
    ensures ResolutionTokens(NoOptions.(resolutionUnits := Some(ResolutionPixelsPerInch), resolutionX := Some(300), resolutionY := Some(300)))
            == Success(["-units", "PixelsPerInch", "-density", "300x300", "-resample", "300x300"])
  {
    PixelsPerInchAt300(NoOptions.(resolutionUnits := Some(ResolutionPixelsPerInch), resolutionX := Some(300), resolutionY := Some(300)));
  }

  lemma PixelsPerInchAt300(o: SaveOptions)
    requires o.resolutionUnits == Some(ResolutionPixelsPerInch) && o.resolutionX == Some(300) && o.resolutionY == Some(300)
    requires o.resamplingFilter.None?
    ensures ResolutionTokens(o) == Success(["-units", "PixelsPerInch", "-density", "300x300", "-resample", "300x300"])
  {
    DimsOf300();
    assert UnitName(ResolutionPixelsPerInch) == Success("PixelsPerInch");
    assert FilterName(FilterUndefined) == Success("");
  }

  lemma DimsOf300()
    ensures Dims(300, 300) == "300x300"
  {
    assert NatToString(3) == "3";
    assert NatToString(30) == "30";
    assert NatToString(300) == "300";
    assert IntToString(300) == "300";
  }
}

=== FILE: tables.dfy ===
/** The option mapper: the fixed lookup tables that translate Imagine's
    abstract option values into the vocabulary of the `convert` command
    (src/ImageMagick/Image.php).

    Imagine's option values are string constants of `ImageInterface` and
    `PaletteInterface`, which are not part of this model. Each enumeration
    below lists the values the tables know and one `Unknown…` alternative
    carrying any other value a caller may pass.
 */
module Tables {
  import opened Outcomes

  // ---------------------------------------------------------------------
  // Resampling filters (Image::getFilter)
  // ---------------------------------------------------------------------

  datatype Filter =
    | FilterUndefined | FilterBessel | FilterBlackman | FilterBox | FilterCatrom
    | FilterCubic | FilterGaussian | FilterHanning | FilterHamming | FilterHermite
    | FilterLanczos | FilterMitchell | FilterPoint | FilterQuadratic | FilterSinc
    | FilterTriangle
    | UnknownFilter(value: string)

  /** `getFilter`: the `-filter` name of a filter; the undefined filter maps to "" (no flag). */
  function FilterName(f: Filter): (r: Result<string>)
    ensures r.Failure? <==> f.UnknownFilter?
    ensures r.Failure? ==> r.error == InvalidArgument
    ensures r.Success? ==> (r.value == "" <==> f == FilterUndefined)
  {
    match f
    case FilterUndefined => Success("")
    case FilterBessel => Success("Kaiser")
    case FilterBlackman => Success("Blackman")
    case FilterBox => Success("Box")
    case FilterCatrom => Success("Catrom")
    case FilterCubic => Success("Cubic")
    case FilterGaussian => Success("Gaussian")
    case FilterHanning => Success("Hanning")
    case FilterHamming => Success("Hamming")
    case FilterHermite => Success("Hermite")
    case FilterLanczos => Success("Lanczos")
    case FilterMitchell => Success("Mitchell")
    case FilterPoint => Success("Point")
    case FilterQuadratic => Success("Quadratic")
    case FilterSinc => Success("Sinc")
    case FilterTriangle => Success("Triangle")
    case UnknownFilter(_) => Failure(InvalidArgument)
  }

  /** The filter a `-filter` name stands for: the tool's reading of the table. */
  function FilterByName(name: string): Option<Filter> {
    match name
    case "Kaiser" => Some(FilterBessel)
    case "Blackman" => Some(FilterBlackman)
    case "Box" => Some(FilterBox)
    case "Catrom" => Some(FilterCatrom)
    case "Cubic" => Some(FilterCubic)
    case "Gaussian" => Some(FilterGaussian)
    case "Hanning" => Some(FilterHanning)
    case "Hamming" => Some(FilterHamming)
    case "Hermite" => Some(FilterHermite)
    case "Lanczos" => Some(FilterLanczos)
    case "Mitchell" => Some(FilterMitchell)
    case "Point" => Some(FilterPoint)
    case "Quadratic" => Some(FilterQuadratic)
    case "Sinc" => Some(FilterSinc)
    case "Triangle" => Some(FilterTriangle)
    case _ => None
  }

  /** Every emitted filter name identifies its filter: no two filters share a name. */
  lemma FilterNameIdentifies(f: Filter)
    requires FilterName(f).Success? && f != FilterUndefined
    ensures FilterByName(FilterName(f).value) == Some(f)
  {
  }

  // ---------------------------------------------------------------------
  // Interlace schemes (Image::interlace)
  // ---------------------------------------------------------------------

  datatype Interlace =
    | InterlaceNone | InterlaceLine | InterlacePlane | InterlacePartition
    | UnknownInterlace(value: string)

  function InterlaceName(scheme: Interlace): (r: Result<string>)
    ensures r.Failure? <==> scheme.UnknownInterlace?
    ensures r.Failure? ==> r.error == InvalidArgument
    ensures r.Success? ==> r.value in {"none", "line", "plane", "partition"}
  {
    match scheme
    case InterlaceNone => Success("none")
    case InterlaceLine => Success("line")
    case InterlacePlane => Success("plane")
    case InterlacePartition => Success("partition")
    case UnknownInterlace(_) => Failure(InvalidArgument)
  }

  function InterlaceByName(name: string): Option<Interlace> {
    match name
    case "none" => Some(InterlaceNone)
    case "line" => Some(InterlaceLine)
    case "plane" => Some(InterlacePlane)
    case "partition" => Some(InterlacePartition)
    case _ => None
  }

  /** Every emitted interlace name identifies its scheme. */
  lemma InterlaceNameIdentifies(scheme: Interlace)
    requires InterlaceName(scheme).Success?
    ensures InterlaceByName(InterlaceName(scheme).value) == Some(scheme)
  {
  }

  // ---------------------------------------------------------------------
  // Resolution units (save option `resolution-units`)
  // ---------------------------------------------------------------------

  datatype ResolutionUnit =
    | ResolutionPixelsPerCentimeter | ResolutionPixelsPerInch
    | UnknownResolution(value: string)

  /** The `-units` value; any other unit throws a RuntimeException. */
  function UnitName(u: ResolutionUnit): (r: Result<string>)
    ensures r.Failure? <==> u.UnknownResolution?
    ensures r.Failure? ==> r.error == RuntimeFailure
    ensures u == ResolutionPixelsPerCentimeter ==> r == Success("PixelsPerCentimeter")
    ensures u == ResolutionPixelsPerInch ==> r == Success("PixelsPerInch")
  {
    match u
    case ResolutionPixelsPerCentimeter => Success("PixelsPerCentimeter")
    case ResolutionPixelsPerInch => Success("PixelsPerInch")
    case UnknownResolution(_) => Failure(RuntimeFailure)
  }

  // ---------------------------------------------------------------------
  // Palettes and colours
  // ---------------------------------------------------------------------

  /** Imagine's palettes; `OtherPalette` is any other implementation of PaletteInterface. */
  datatype Palette = PaletteRgb | PaletteCmyk | PaletteGrayscale | OtherPalette(name: string)

  /** `PaletteInterface::name()`; the three built-in palettes use the PALETTE_* constants. */
  function PaletteName(p: Palette): string {
    match p
    case PaletteRgb => "rgb"
    case PaletteCmyk => "cmyk"
    case PaletteGrayscale => "gray"
    case OtherPalette(n) => n
  }

  /** The palette names the `-type` table of `setColorspace` covers. */
  predicate KnownPaletteName(name: string) {
    name == "rgb" || name == "cmyk" || name == "gray"
  }

  /** `setColorspace`'s `$typeMapping`: Matte variants keep the alpha channel. */
  function MatteType(name: string): (r: string)
    requires KnownPaletteName(name)
    ensures name == "gray" <==> r == "GrayscaleMate"
    ensures name != "gray" <==> r == "TrueColorMatte"
  {
    if name == "gray" then "GrayscaleMate" else "TrueColorMatte"
  }

  /** A colour: the palette it belongs to and its string form (`(string) $color`). */
  datatype Color = Color(palette: Palette, text: string)

  // ---------------------------------------------------------------------
  // MIME types (Image::getMimeType)
  // ---------------------------------------------------------------------

  function MimeType(format: string): (r: Result<string>)
    ensures r.Success? <==> format in {"jpeg", "jpg", "gif", "png", "wbmp", "xbm"}
    ensures r.Failure? ==> r.error == RuntimeFailure
    ensures r.Success? ==> |r.value| > 6 && r.value[..6] == "image/"
    ensures format in {"jpeg", "jpg"} ==> r == Success("image/jpeg")
    ensures format == "gif" ==> r == Success("image/gif")
    ensures format == "png" ==> r == Success("image/png")
    ensures format == "wbmp" ==> r == Success("image/vnd.wap.wbmp")
    ensures format == "xbm" ==> r == Success("image/xbm")
  {
    match format
    case "jpeg" => Success("image/jpeg")
    case "jpg" => Success("image/jpeg")
    case "gif" => Success("image/gif")
    case "png" => Success("image/png")
    case "wbmp" => Success("image/vnd.wap.wbmp")
    case "xbm" => Success("image/xbm")
    case _ => Failure(RuntimeFailure)
  }
}

=== FILE: text.dfy ===
/** String helpers that stand for the PHP built-ins the core relies on:
    `sprintf('%d')`, `strtolower`, `trim`, `pathinfo(…, PATHINFO_EXTENSION)`,
    and the whitespace class `\s` of a PCRE pattern. Strings are sequences
    of characters; only ASCII behaviour is modelled.
 */
module Text {
  import opened Outcomes

  // ---------------------------------------------------------------------
  // Decimal integers (sprintf '%d')
  // ---------------------------------------------------------------------

  predicate IsDigit(c: char) {
    '0' <= c <= '9'
  }

  predicate AllDigits(s: string) {
    forall i :: 0 <= i < |s| ==> IsDigit(s[i])
  }

  function Digit(d: nat): (c: char)
    requires d < 10
    ensures IsDigit(c) && c as int - '0' as int == d
  {
    ('0' as int + d) as char
  }

  /** Decimal notation of a non-negative integer. */
  function NatToString(n: nat): (s: string)
    ensures |s| > 0 && AllDigits(s)
    decreases n
  {
    if n < 10 then [Digit(n)] else NatToString(n / 10) + [Digit(n % 10)]
  }

  /** The value of a string of decimal digits (the reading of `NatToString`). */
  function DigitsValue(s: string): nat
    requires AllDigits(s)
    decreases |s|
  {
    if s == [] then 0 else 10 * DigitsValue(s[..|s| - 1]) + (s[|s| - 1] as int - '0' as int)
  }

  lemma {:induction false} DigitsValueOfNatToString(n: nat)
    ensures DigitsValue(NatToString(n)) == n
    decreases n
  {
    if n >= 10 {
      var s := NatToString(n);
      assert s[..|s| - 1] == NatToString(n / 10);
      DigitsValueOfNatToString(n / 10);
    }
  }

  /** `sprintf('%d', i)`: a leading minus sign for negative values, then the digits. */
  function IntToString(i: int): (s: string)
    ensures |s| > 0
    ensures forall k :: 0 <= k < |s| ==> s[k] == '-' || IsDigit(s[k])
  {
    if i < 0 then "-" + NatToString(-i) else NatToString(i)
  }

  /** Reads back an optionally signed decimal integer. */
  function ParseInt(s: string): Option<int> {
    if |s| > 0 && s[0] == '-' then
      if |s| > 1 && AllDigits(s[1..]) then Some(-(DigitsValue(s[1..]) as int)) else None
    else if |s| > 0 && AllDigits(s) then Some(DigitsValue(s))
    else None
  }

  /** Every integer the model writes into a token reads back as itself. */
  lemma ParseIntOfIntToString(i: int)
    ensures ParseInt(IntToString(i)) == Some(i)
  {
    if i < 0 {
      var s := IntToString(i);
      assert s[1..] == NatToString(-i);
      DigitsValueOfNatToString(-i);
    } else {
      DigitsValueOfNatToString(i);
    }
  }

  // ---------------------------------------------------------------------
  // Searching
  // ---------------------------------------------------------------------

  /** The position of the first occurrence of `c` in `s`. */
  function IndexOf(s: string, c: char): (r: Option<nat>)
    ensures r.None? <==> c !in s
    ensures r.Some? ==> r.value < |s| && s[r.value] == c && c !in s[..r.value]
    decreases |s|
  {
    if |s| == 0 then None
    else if s[0] == c then Some(0)
    else match IndexOf(s[1..], c)
      case None => None
      case Some(k) => assert s[..k + 1] == [s[0]] + s[1..][..k]; Some(k + 1)
  }

  lemma {:induction false} IndexOfSeparator(a: string, c: char, b: string)
    requires c !in a
    ensures IndexOf(a + [c] + b, c) == Some(|a|)
    decreases |a|
  {
    var s := a + [c] + b;
    if a != [] {
      assert s[0] == a[0] && a[0] != c;
      assert s[1..] == a[1..] + [c] + b;
      IndexOfSeparator(a[1..], c, b);
    }
  }

  // ---------------------------------------------------------------------
  // strtolower
  // ---------------------------------------------------------------------

  predicate IsUpper(c: char) {
    'A' <= c <= 'Z'
  }

  function LowerChar(c: char): char {
    if IsUpper(c) then (c as int + 32) as char else c
  }

  /** ASCII lower-casing, as PHP 8's `strtolower`. */
  function ToLower(s: string): (r: string)
    ensures |r| == |s|
    ensures forall i :: 0 <= i < |s| ==> r[i] == LowerChar(s[i])
    decreases |s|
  {
    if s == [] then [] else [LowerChar(s[0])] + ToLower(s[1..])
  }

  // ---------------------------------------------------------------------
  // trim and the PCRE class \s
  // ---------------------------------------------------------------------

  /** The characters PHP's `trim` strips by default: space, tab, newline, carriage return, NUL, vertical tab. */
  predicate IsTrimmed(c: char) {
    c == ' ' || c == '\t' || c == '\n' || c == '\r' || c as int == 0 || c as int == 11
  }

  /** The PCRE whitespace class `\s`: space, tab, newline, vertical tab, form feed, carriage return. */
  predicate IsSpace(c: char) {
    c == ' ' || 9 <= c as int <= 13
  }

  function TrimStart(s: string): (r: string)
    ensures |r| <= |s| && r == s[|s| - |r|..]
    ensures forall i :: 0 <= i < |s| - |r| ==> IsTrimmed(s[i])
    ensures r == [] || !IsTrimmed(r[0])
    decreases |s|
  {
    if |s| > 0 && IsTrimmed(s[0]) then TrimStart(s[1..]) else s
  }

  function TrimEnd(s: string): (r: string)
    ensures |r| <= |s| && r == s[..|r|]
    ensures forall i :: |r| <= i < |s| ==> IsTrimmed(s[i])
    ensures r == [] || !IsTrimmed(r[|r| - 1])
    decreases |s|
  {
    if |s| > 0 && IsTrimmed(s[|s| - 1]) then TrimEnd(s[..|s| - 1]) else s
  }

  /** How many strippable characters lead `s`. */
  function LeadingTrimmed(s: string): nat {
    |s| - |TrimStart(s)|
  }

  /** PHP's `trim`: the infix left once strippable characters are removed from both ends. */
  function Trim(s: string): (r: string)
    ensures r == [] || (!IsTrimmed(r[0]) && !IsTrimmed(r[|r| - 1]))
    ensures LeadingTrimmed(s) + |r| <= |s| && r == s[LeadingTrimmed(s)..LeadingTrimmed(s) + |r|]
    ensures forall i :: 0 <= i < LeadingTrimmed(s) ==> IsTrimmed(s[i])
    ensures forall i :: LeadingTrimmed(s) + |r| <= i < |s| ==> IsTrimmed(s[i])
  {
    var t := TrimStart(s);
    var r := TrimEnd(t);
    InfixOfSuffix(s, t, r);
    r
  }

  /** A prefix `r` of a suffix `t` of `s` is the infix of `s` at the suffix's offset. */
  lemma InfixOfSuffix(s: string, t: string, r: string)
    requires |t| <= |s| && t == s[|s| - |t|..]
    requires |r| <= |t| && r == t[..|r|]
    ensures |s| - |t| + |r| <= |s| && r == s[|s| - |t|..|s| - |t| + |r|]
    ensures forall k :: |s| - |t| + |r| <= k < |s| ==> s[k] == t[k - (|s| - |t|)]
  {
  }

  /** A string with no strippable character at its ends is its own trim. */
  lemma TrimOfTrimmed(s: string)
    requires s == [] || (!IsTrimmed(s[0]) && !IsTrimmed(s[|s| - 1]))
    ensures Trim(s) == s
  {
  }

  // ---------------------------------------------------------------------
  // basename and pathinfo(…, PATHINFO_EXTENSION)
  // ---------------------------------------------------------------------

  /** The longest suffix of `s` that does not contain `c`. */
  function AfterLast(s: string, c: char): (r: string)
    ensures c !in r
    ensures |r| <= |s| && r == s[|s| - |r|..]
    ensures |r| < |s| ==> s[|s| - |r| - 1] == c
    decreases |s|
  {
    if |s| == 0 then ""
    else if s[|s| - 1] == c then ""
    else
      var r := AfterLast(s[..|s| - 1], c);
      AfterLastStep(s, c, r);
      r + [s[|s| - 1]]
  }

  /** Extending the suffix of the front by the last character keeps AfterLast's contract. */
  lemma AfterLastStep(s: string, c: char, r: string)
    requires |s| > 0 && s[|s| - 1] != c
    requires c !in r
    requires |r| <= |s| - 1 && r == s[..|s| - 1][|s| - 1 - |r|..]
    requires |r| < |s| - 1 ==> s[..|s| - 1][|s| - 1 - |r| - 1] == c
    ensures c !in r + [s[|s| - 1]]
    ensures r + [s[|s| - 1]] == s[|s| - |r| - 1..]
    ensures |r| + 1 < |s| ==> s[|s| - |r| - 2] == c
  {
    var k := |s| - 1 - |r|;
    assert s[k..] == s[..|s| - 1][k..] + [s[|s| - 1]];
    if |r| + 1 < |s| {
      assert s[..|s| - 1][k - 1] == s[k - 1];
    }
  }

  lemma {:induction false} AfterLastAppend(s: string, t: string, c: char)
    requires c !in t
    ensures AfterLast(s + t, c) == AfterLast(s, c) + t
    decreases |t|
  {
    if t != [] {
      var t' := t[..|t| - 1];
      assert (s + t)[..|s + t| - 1] == s + t';
      assert t == t' + [t[|t| - 1]];
      AfterLastAppend(s, t', c);
    } else {
      assert s + t == s;
    }
  }

  function StripTrailingSlashes(s: string): (r: string)
    ensures |r| <= |s| && r == s[..|r|]
    ensures forall i :: |r| <= i < |s| ==> s[i] == '/'
    ensures r == [] || r[|r| - 1] != '/'
    decreases |s|
  {
    if |s| > 0 && s[|s| - 1] == '/' then StripTrailingSlashes(s[..|s| - 1]) else s
  }

  /** PHP's `basename`: the last path component, trailing slashes ignored. */
  function Basename(path: string): string {
    AfterLast(StripTrailingSlashes(path), '/')
  }

  /** `pathinfo($path, PATHINFO_EXTENSION)`: what follows the last dot of the base name, or "" when it has no dot. */
  function Extension(path: string): (r: string)
    ensures '.' !in r && '/' !in r
    ensures '.' !in Basename(path) ==> r == ""
    ensures '.' in Basename(path) ==>
              && |r| < |Basename(path)|
              && Basename(path)[|Basename(path)| - |r| - 1] == '.'
              && r == Basename(path)[|Basename(path)| - |r|..]
  {
    var base := Basename(path);
    assert '/' !in base;
    NameExtension(base)
  }

  /** The extension of a base name (which holds no slash). */
  function NameExtension(base: string): (r: string)
    requires '/' !in base
    ensures '.' !in r && '/' !in r
    ensures '.' !in base ==> r == ""
    ensures '.' in base ==>
              && |r| < |base|
              && base[|base| - |r| - 1] == '.'
              && r == base[|base| - |r|..]
  {
    if '.' in base then AfterLastShorter(base, '.'); AfterLast(base, '.') else ""
  }

  /** When `c` occurs, what follows its last occurrence is shorter than the whole. */
  lemma AfterLastShorter(s: string, c: char)
    requires c in s
    ensures |AfterLast(s, c)| < |s|
  {
    var r := AfterLast(s, c);
    var i :| 0 <= i < |s| && s[i] == c;
    assert forall j :: |s| - |r| <= j < |s| ==> s[j] == r[j - (|s| - |r|)];
    assert i < |s| - |r|;
  }

  lemma BasenameOfDotSuffix(stem: string, ext: string)
    requires '.' !in ext && '/' !in ext
    ensures Basename(stem + (['.'] + ext)) == AfterLast(stem, '/') + (['.'] + ext)
  {
    var tail := ['.'] + ext;
    var s := stem + tail;
    assert s[|s| - 1] != '/' by {
      if ext == [] { assert s[|s| - 1] == '.'; } else { assert s[|s| - 1] == ext[|ext| - 1]; }
    }
    assert StripTrailingSlashes(s) == s;
    assert '/' !in tail;
    AfterLastAppend(stem, tail, '/');
  }

  /** A path ending in a dot and a dot-free, slash-free suffix has exactly that suffix as its extension. */
  lemma ExtensionOfSuffix(stem: string, ext: string)
    requires '.' !in ext && '/' !in ext
    ensures Extension(stem + "." + ext) == ext
  {
    DotJoin(stem, ext);
    BasenameOfDotSuffix(stem, ext);
    ExtensionOfBasename(stem + "." + ext, AfterLast(stem, '/'), ext);
  }

  lemma DotJoin(stem: string, ext: string)
    ensures stem + "." + ext == stem + (['.'] + ext)
  {
    assert "." == ['.'];
  }

  /** A base name `dir.ext` with a dot-free `ext` has extension `ext`. */
  lemma ExtensionOfBasename(path: string, dir: string, ext: string)
    requires '.' !in ext
    requires Basename(path) == dir + (['.'] + ext)
    ensures Extension(path) == ext
  {
    assert Basename(path)[|dir|] == '.';
    AfterLastOfSeparator(dir, '.', ext);
  }

  lemma AfterLastOfSeparator(d: string, c: char, t: string)
    requires c !in t
    ensures AfterLast(d + ([c] + t), c) == t
  {
    assert d + ([c] + t) == (d + [c]) + t;
    assert AfterLast(d + [c], c) == "";
    AfterLastAppend(d + [c], t, c);
  }
}
